=== FILE: README.md ===
# dbstream `MySqlStream`, modelled in Dafny

`MySqlStream` stores named byte streams in two MySQL tables:
- `stream` holds one header row per stream: id, description, type, timestamp and size.
- `streamdata` holds the payload as BLOB chunks of at most 65535 bytes.
  Each chunk row points at its header through `masterid`, with `ON DELETE CASCADE`.

The engine offers these operations:
- It writes a stream inside one transaction. The header goes in first with size 0, then one chunk per non-empty read of the shared 65535-byte buffer, then the size is patched.
- It reads a range of ids in pages of at most 100 headers. Each page is read under a READ table lock, and each stream is handed to a reader callback as BEGIN, DATA… and END calls. The reader can stop the read by answering false.
- It deletes a range of ids under a WRITE lock.
- It fetches the first or last header.
- It tests whether an id exists.

The model replaces the MySQL connection by the state it stands for. `Engine.MySqlStream` is a class with these fields:
- the header and chunk tables, as sequences in id order;
- their two auto-increment counters;
- the table lock held (`NoLock`, `ReadLock`, `WriteLock`);
- the names of the tables in the selected database;
- the shared buffer, an `array<byte>` of 65535;
- the reader, a function from the calls it has received to its answer;
- `trace`, the calls made so far.

Backend failures of a Write are an input, `failStep`, that names the statement that fails. `SqlLock`'s RAII lock and unlock become assignments to the lock field around the statements it guards.

Each engine method is proved against a specification over values. The specifications live in these modules:
- `Tables.Committed` and `Tables.Deleted` give the new tables after a Write or a Delete.
- `Scan.ScanSpec` gives the calls of an unpaginated read of the selected rows.
- `Range.Select` and `Range.Keep` give the rows a range filter selects and keeps.
- `Chunking.Pieces` gives how a source is cut into buffer-sized reads.

The properties the engine promises are proved about those specifications:
- reassembly;
- size bookkeeping;
- pagination;
- the callback protocol;
- the cascade;
- validity of the tables.

Files:
- `stream.dfy`: the shared types.
- `chunking.dfy`: the read loop's pieces.
- `range.dfy`: the range filter and pagination.
- `tables.dfy`: the store, its invariant, and the effect of writes and deletes.
- `scan.dfy`: the reader protocol.
- `schema.dfy`: the table-name search.
- `engine.dfy`: the engine class.
- `properties.dfy`: properties that span several operations.

## Model

| member | source | states |
|---|---|---|
| Chunking.ReadCount | dbstream/src/mysqlstream.cpp:419-420 | one `read` into the 65535-byte buffer returns at most 65535 bytes and no more than remain; it returns 0 only when the source is exhausted, and a short read means the source is exhausted |
| Chunking.Pieces | dbstream/src/mysqlstream.cpp:417-430 | the read loop yields no chunk for an empty source and at least one chunk otherwise |
| Chunking.PiecesBounded | dbstream/src/mysqlstream.cpp:424-429 | every chunk a Write inserts is non-empty and fits the 65535-byte BLOB column |
| Chunking.ConsumeStep | dbstream/src/mysqlstream.cpp:417-430 | one turn of the read loop: a non-empty read is the next chunk, and an empty read means every chunk has been taken |
| Chunking.FlattenPieces | dbstream/src/mysqlstream.cpp:415-430 | the chunks, concatenated in insertion order, are the source byte for byte |
| Chunking.TotalLenFlatten | dbstream/src/mysqlstream.cpp:421 | the accumulated `size_total` (sum of chunk lengths) is the length of the reassembled payload |
| Chunking.PiecesCount | dbstream/src/mysqlstream.cpp:417-430 | a source of n bytes gives ⌈n / 65535⌉ chunks |
| Chunking.PiecesOfCell | dbstream/src/mysqlstream.cpp:800-810 | a stored BLOB of at most 65535 bytes is handed to the reader in a single DATA call |
| Range.AboveFirst | dbstream/src/mysqlstream.cpp:475-486 | every id above `first` passes the lower side, none below it does, and `first` itself passes exactly when the side is inclusive (`>=` rather than `>`) or `first` is 0 |
| Range.BelowLast | dbstream/src/mysqlstream.cpp:476-491 | every id below `last` (or any id when `last` is 0) passes the upper side, none above a set `last` does, and `last` itself passes exactly when the side is inclusive |
| Range.InRange | dbstream/src/mysqlstream.cpp:475-496 | an id in range lies within the closed interval of the set bounds, and every id strictly between them is in range |
| Range.RangeConvex | dbstream/src/mysqlstream.cpp:478-481 | the range is an interval: an id between two ids in range is in range |
| Range.Select | dbstream/src/mysqlstream.cpp:478-500 | the read query never returns more rows than the table holds; its rows are exactly those in range (Range.SelectMembers), in id order (Range.SelectAscending) |
| Range.Keep | dbstream/src/mysqlstream.cpp:605-625 | a delete never leaves more rows than the table held; the survivors are exactly the rows out of range (Range.KeepMembers) |
| Range.SelectKeepPartition | dbstream/src/mysqlstream.cpp:478-496 | a range splits the table: every row is selected by the read query or kept by the delete with that range, never both, so the two counts add up to the table's |
| Range.Advance | dbstream/src/mysqlstream.cpp:561-564 | after a row with id v > 0, the advanced query admits exactly the ids above v that the upper bound admits |
| Range.ZeroBoundIgnoresFlag | dbstream/src/mysqlstream.cpp:475-496 | a bound of 0 disables its side whatever its inclusive flag says; with both bounds 0 every id matches |
| Range.PointRange | dbstream/src/mysqlstream.cpp:475-496 | with `first == last > 0`, inclusive on both sides matches exactly that id, and an exclusive side matches nothing |
| Range.SelectMembers | dbstream/src/mysqlstream.cpp:478-496 | the rows a read query selects are exactly the rows whose id satisfies the range |
| Range.KeepMembers | dbstream/src/mysqlstream.cpp:608-625 | the rows a delete leaves are exactly the rows whose id does not satisfy the range |
| Range.SelectAscending | dbstream/src/mysqlstream.cpp:498-500 | the selection comes back in ascending id order (`ORDER BY id ASC`) |
| Range.Batch | dbstream/src/mysqlstream.cpp:498-500 | one query returns at most 100 rows, a prefix of the selection, and a short page is the whole rest of the selection |
| Range.SelectAfter | dbstream/src/mysqlstream.cpp:557-568 | pagination neither loses nor repeats rows: after the first k selected rows, those still to come are exactly what the range selects once its lower bound becomes the k-th row's id, exclusive, with the upper bound unchanged |
| Range.NextBatch | dbstream/src/mysqlstream.cpp:557-568 | after a full page of 100 rows, the next query selects exactly the rows not yet delivered, and strictly fewer rows than before |
| Range.UnboundedSelectsAll | dbstream/src/mysqlstream.cpp:493-495 | with both bounds 0 the query selects every row and a delete keeps none |
| Tables.Cascade | dbstream/src/mysqlstream.cpp:306-308 | the cascade never adds chunk rows |
| Tables.Committed | dbstream/src/mysqlstream.cpp:382-447 | a committed Write keeps every old header and chunk row in place and appends one header; every new chunk row belongs to the new id, and each counter advances by the rows it numbered |
| Tables.Deleted | dbstream/src/mysqlstream.cpp:590-666 | after a delete the headers are exactly the old ones outside the range and the chunks exactly the old ones whose header was not deleted; the counters return to 1 only for `reset_id` with both bounds 0, and are otherwise unchanged |
| Tables.ChunkData | dbstream/src/mysqlstream.cpp:775-776 | the chunk query of one stream returns at most one BLOB per chunk row |
| Tables.ChunkDataMembers | dbstream/src/mysqlstream.cpp:775-776 | the chunk query returns a BLOB exactly when a chunk row of that stream (`masterid = id`) holds it |
| Tables.NewChunks | dbstream/src/mysqlstream.cpp:424-429 | a Write inserts one chunk row per non-empty read |
| Tables.ChunkDataNew | dbstream/src/mysqlstream.cpp:424-429 | the chunk rows a Write inserts, read back by the chunk query for that stream, are its reads in order |
| Tables.CascadeMembers | dbstream/src/mysqlstream.cpp:306-308 | the cascade keeps exactly the chunk rows whose `masterid` is not a deleted header id |
| Tables.WriteCommitted | dbstream/src/mysqlstream.cpp:382-447 | a committed Write keeps the tables valid. The new header takes the next id and has size = bytes read. Its chunks, in id order, are the non-empty reads and reassemble to the source. There are ⌈n / 65535⌉ of them. Every older stream keeps its payload |
| Tables.DeleteEffect | dbstream/src/mysqlstream.cpp:590-666 | after a delete the tables are valid and the headers are exactly the old ones outside the range. The counters return to 1 only for `reset_id` with both bounds 0; otherwise they are unchanged |
| Tables.DeleteCascades | dbstream/src/mysqlstream.cpp:301-308 | after a delete every remaining chunk is an old one whose header survived, every chunk of a surviving header remains, and each surviving stream keeps its payload |
| Tables.DeleteAllEmpties | dbstream/src/mysqlstream.cpp:623-625 | the unbounded `DELETE FROM stream` empties both tables |
| Scan.DeliverPieces | dbstream/src/mysqlstream.cpp:800-810 | DATA delivery only appends reader calls: the calls made before stay as they were |
| Scan.ReadDataSpec | dbstream/src/mysqlstream.cpp:779-816 | the reference delivery for one stream only appends reader calls |
| Scan.StreamSpec | dbstream/src/mysqlstream.cpp:533-555 | the reference handling of one row only appends reader calls |
| Scan.ScanSpec | dbstream/src/mysqlstream.cpp:521-558 | the reference scan of the selected rows only appends reader calls |
| Scan.DeliverAnswers | dbstream/src/mysqlstream.cpp:800-810 | DATA delivery stops exactly at a false answer: a stopped delivery's last call was answered false, and every other call it made was answered true |
| Scan.StreamAnswers | dbstream/src/mysqlstream.cpp:779-816 | a stream read is stopped only when its size is not 0. For such a stream, it is stopped exactly when one of its calls before END was answered false, and then the call just before END was |
| Scan.StopEndsScan | dbstream/src/mysqlstream.cpp:545-558 | a stopped read ends in the row it was stopped in: the streams begun are the selected rows up to that one, which has a non-zero size; the last call is its END and the call before was answered false, so no later row is begun. The whole read's calls are those of that row's own read, which the reader stopped |
| Scan.StopInFirst | dbstream/src/mysqlstream.cpp:545-553 | a stop while reading the first row ends the read after that row's END, and the row's own read is the stopped one |
| Scan.StopAfterFirst | dbstream/src/mysqlstream.cpp:533-558 | after a first row that was read to its end, a stop in the remaining rows is a stop of the whole read |
| Scan.AllPiecesBounded | dbstream/src/mysqlstream.cpp:800-810 | every piece the nested chunk and BLOB loops read holds between 1 and 65535 bytes |
| Scan.StreamPiecesBounded | dbstream/src/mysqlstream.cpp:800-810 | every DATA call of a stream read, stopped or not, carries between 1 and 65535 bytes, which fits the shared buffer |
| Scan.ScanPiecesBounded | dbstream/src/mysqlstream.cpp:521-558 | over a whole read, stopped or not, every DATA call carries between 1 and 65535 bytes |
| Scan.AllPieces | dbstream/src/mysqlstream.cpp:781-811 | the pieces the nested chunk and BLOB loops read reassemble to the stream's chunks concatenated: no byte is lost, added or reordered |
| Scan.ScanGroups | dbstream/src/mysqlstream.cpp:521-558 | a whole read is, call for call, one contiguous group per row it began, in row order: BEGIN, that stream's DATA calls and its END, before the next stream's BEGIN |
| Scan.DeliverShape | dbstream/src/mysqlstream.cpp:800-810 | DATA calls hand over a prefix of the pieces in order, all of them unless the reader answered false |
| Scan.StreamShape | dbstream/src/mysqlstream.cpp:533-555 | each stream receives exactly one BEGIN, then DATA for a prefix of its pieces (all of them if the reader did not stop the read), then exactly one END, even after a stop. A size-0 stream gets just BEGIN and END, whatever the reader answers |
| Scan.StreamCounts | dbstream/src/mysqlstream.cpp:779-813 | a stream read, stopped or not, makes one BEGIN and one END call, both for that stream |
| Scan.ScanShape | dbstream/src/mysqlstream.cpp:521-558 | over a whole read the BEGINs and ENDs pair up. The streams visited are a prefix of the selected rows in order, and all of them when the read was not stopped. A stopped read visited at least one row |
| Scan.CompleteStreamDeliversPayload | dbstream/src/testapp.cpp:356-361 | in valid tables, a stream the reader did not stop receives its payload as one DATA call per chunk. Each call carries at most 65535 bytes, and the byte count equals the header's `size`, so the demo reader's `[ERROR]` never fires |
| Scan.RowDelivered | dbstream/src/mysqlstream.cpp:779-811 | in valid tables, a row the reader did not stop gets exactly `chunks + 2` calls: BEGIN, one DATA call per stored chunk carrying that chunk, and END, whose DATA calls reassemble to the row's payload and add up to its `size` |
| Scan.DeliveredCons | dbstream/src/mysqlstream.cpp:521-558 | one row's complete group followed by the complete groups of the remaining rows is a complete delivery of all of them |
| Scan.ScanDelivers | dbstream/src/mysqlstream.cpp:521-558 | in valid tables, a read of table rows that the reader did not stop splits, back to back and in order, into one complete group per row, each holding all of that row's stored bytes in chunk order and adding up to its `size` |
| Scan.AlwaysTrueNeverStops | dbstream/src/testapp.cpp:337-372 | a reader that answers every call with true, as the demo reader does, never stops a read |
| Schema.SearchNames | dbstream/src/mysqlstream.cpp:226-233 | the result-set walk finds a name exactly when it is listed |
| Engine.NoFailureSteps | dbstream/src/mysqlstream.cpp:398-437 | a Write of n chunks succeeds exactly when none of its statements throws: the header insert, `LAST_INSERT_ID`, each chunk insert, the size update and the commit |
| Engine.QueryOutcome | dbstream/src/mysqlstream.cpp:557-568 | a stop by the reader or a short page finishes the read; otherwise the advanced bounds leave exactly the undelivered rows, fewer than before |
| Engine.MySqlStream.constructor | dbstream/src/mysqlstream.cpp:123-143 | the engine holds a connection exactly when the driver connects, the API version is positive, the database is listed, and each table exists or its own CREATE succeeds; a failed initialisation drops the connection. The tables are left as found and no lock is held |
| Engine.MySqlStream.InitDatabase | dbstream/src/mysqlstream.cpp:156-212 | initialisation succeeds exactly when the API version is positive, the database is listed, and each of the two tables exists or its own CREATE succeeds; both tables then exist, and no table listed before is lost |
| Engine.MySqlStream.InitTable | dbstream/src/mysqlstream.cpp:242-281 | a table is created only when the name search does not find it. Initialisation succeeds if the table exists or its creation succeeds |
| Engine.MySqlStream.IsValid | dbstream/src/mysqlstream.h:47 | true exactly when a connection is held |
| Engine.MySqlStream.Notify | dbstream/src/dbstream.h:34-36 | each reader call is appended to the trace, is made under the lock currently held, and returns the reader's answer |
| Engine.MySqlStream.ReadSource | dbstream/src/mysqlstream.cpp:419-420 | a read copies the next `ReadCount` bytes of the source into the start of the shared buffer |
| Engine.MySqlStream.Rollback | dbstream/src/mysqlstream.cpp:444 | the tables return to their state when the transaction began |
| Engine.MySqlStream.AppendChunk | dbstream/src/mysqlstream.cpp:426-428 | a chunk insert appends one row for the stream with the next chunk id |
| Engine.MySqlStream.ChunkStep | dbstream/src/mysqlstream.cpp:417-430 | one loop turn reads at most 65535 bytes and, if any, inserts them as the next chunk; a failing insert stops the loop |
| Engine.MySqlStream.InsertChunks | dbstream/src/mysqlstream.cpp:415-430 | the chunk loop inserts exactly the pieces of the source with consecutive ids and counts every byte, unless a chunk insert fails |
| Engine.MySqlStream.WriteStream | dbstream/src/mysqlstream.cpp:382-447 | a Write succeeds exactly when the header is not NULL and no statement fails. On success the tables are `Committed(old, hdr, source)` and the caller's header receives the new id. Otherwise the tables are unchanged. No lock is taken and the tables stay valid |
| Engine.MySqlStream.WriteBuffer | dbstream/src/mysqlstream.cpp:372-380 | a NULL header or buffer throws instead of returning, with nothing written; otherwise it is the stream Write of exactly `hdr->size` bytes of the buffer |
| Engine.MySqlStream.DeliverChunk | dbstream/src/mysqlstream.cpp:800-810 | the BLOB loop for one chunk makes the DATA calls the reference delivery makes, stopping at the first false answer |
| Engine.MySqlStream.ReadData | dbstream/src/mysqlstream.cpp:764-822 | the calls made and the `stopped` flag are those of the reference `ReadDataSpec`: BEGIN, DATA per piece of each chunk in id order while the reader answers true, and END always |
| Engine.MySqlStream.ReadBatch | dbstream/src/mysqlstream.cpp:521-555 | the row loop of one page follows the reference scan row by row, stops with the reader, and reports the last row handled, size-0 rows included |
| Engine.MySqlStream.QueryPage | dbstream/src/mysqlstream.cpp:498-512 | the page query, run under the READ lock, returns at most 100 rows, the first of those the range selects, and all of them when fewer come back |
| Engine.MySqlStream.ReadQuery | dbstream/src/mysqlstream.cpp:473-568 | one page under the READ lock, released on return. It continues the reference scan of the selection and either ends the read or moves the lower bound to the last row's id, exclusive, leaving fewer rows to select |
| Engine.MySqlStream.Read | dbstream/src/mysqlstream.cpp:455-577 | with a reader, the paginated read makes exactly the calls of a single unpaginated scan of the rows in range in id order. With no reader it returns false and makes no call, and needs no connection to do so. The lock is back at none on return |
| Engine.MySqlStream.ReadById | dbstream/src/mysqlstream.cpp:449-453 | `Read` on the id column with the caller's bounds |
| Engine.MySqlStream.Delete | dbstream/src/mysqlstream.cpp:590-666 | the tables become `Deleted(old, range, reset_id)`. The WRITE lock is released on return and the tables stay valid |
| Engine.MySqlStream.DeleteRows | dbstream/src/mysqlstream.cpp:639-659 | run under the WRITE lock, the DELETE with its cascade and, for `reset_id` on an unbounded range, the two `AUTO_INCREMENT = 1` statements |
| Engine.MySqlStream.DeleteById | dbstream/src/mysqlstream.cpp:579-583 | a range delete on id that never resets the counters (`reset_id` defaults to false) |
| Engine.MySqlStream.DeleteAll | dbstream/src/mysqlstream.cpp:585-588 | both tables end empty and the counters are unchanged |
| Engine.MySqlStream.Get | dbstream/src/mysqlstream.cpp:679-725 | a NULL header gives false and leaves it as it was. On an empty table, id, size and timestamp become 0 and descr NULL. Otherwise the header receives the first (ASC) or last (DESC) row of the table, whose id is minimal or maximal, and its description is not NULL. `type` is never written and the READ lock is released on return |
| Engine.MySqlStream.QueryEdge | dbstream/src/mysqlstream.cpp:689-717 | the `ORDER BY id … LIMIT 1` query, run under the READ lock, returns nothing exactly when the table is empty, and otherwise its first or last row, whose id is minimal or maximal |
| Engine.MySqlStream.GetFirst | dbstream/src/mysqlstream.cpp:668-671 | a NULL header gives false and is left as it was; otherwise the header receives the first row, which has the smallest id, or the empty-table header |
| Engine.MySqlStream.GetLast | dbstream/src/mysqlstream.cpp:673-676 | a NULL header gives false and is left as it was; otherwise the header receives the last row, which has the largest id, or the empty-table header |
| Engine.MySqlStream.LookupById | dbstream/src/mysqlstream.cpp:733-762 | without a place for the answer it returns false; otherwise `found` holds exactly when some row has the id. The READ lock is released on return |
| Engine.MySqlStream.QueryId | dbstream/src/mysqlstream.cpp:746-756 | the `SELECT 1 … WHERE id = … LIMIT 1` query, run under the READ lock, finds a row exactly when some header has the id |
| Engine.CopyRow | dbstream/src/mysqlstream.cpp:711-717 | the fields Get copies from the row leave the caller's `type` as it was |
| Engine.CreateDBStream | dbstream/src/mysqlstream.cpp:27-40 | returns an engine exactly when the driver connects and initialisation succeeds, each table's CREATE counted on its own, and then a valid, connected one over the existing tables |
| Properties.WriteThenReadBack | dbstream/src/mysqlstream.cpp:439-453 | after a Write, `ReadById(id, true, id, true)` with the returned id visits exactly the new stream. Unless the reader stops it, it hands over the written bytes in pieces of at most 65535 that reassemble to the source and add up to the header's size |
| Properties.ReadVisitsRange | dbstream/src/mysqlstream.cpp:455-577 | a read visits only rows in range, in strictly ascending id order (none twice), each with exactly one BEGIN and END, and every row in range unless the reader stopped it |
| Properties.ReadDeliversPayloads | dbstream/src/mysqlstream.cpp:455-577 | a ranged read over valid tables that the reader did not stop hands every row in range its complete group, whose DATA calls reassemble to the stored payload and add up to the row's `size`. A reader that always answers true, like the demo's, is never stopped, so its size check always passes |
| Properties.WriteAfterDeleteAll | dbstream/src/mysqlstream.cpp:585-588 | after DeleteAll the next Write's header is the only row and keeps the old numbering |
| Properties.WriteAfterReset | dbstream/src/mysqlstream.cpp:651-659 | after an unbounded delete with `reset_id`, the next Write gets stream id 1 and chunk ids from 1 |
| Properties.LookupAfterWriteAndDelete | dbstream/src/mysqlstream.cpp:733-762 | a written id is found by Lookup, and is not found after a delete exactly when the delete's range covers it |

## Left out

- The MySQL Connector/C++ driver, the SQL and DDL text, prepared statements, result sets and BLOB streams: the tables are sequences and a transaction is an all-or-nothing update of them.
- Logging (`WriteToLog`, the logger object), the `TRY`/`CATCH`/`THROW` macros (a throw caught in the engine becomes a `false` result) and `Describe`, which only formats table metadata for the log.
- Engine.MySqlStream.Rollback: it restores the auto-increment counters along with the rows, while InnoDB keeps the counter values a rolled-back insert consumed.
- Engine.MySqlStream.WriteStream: rollback also restores the auto-increment counters. InnoDB keeps the ids consumed by a rolled-back insert, so a later write would get a higher id than the model gives.
- Engine.MySqlStream.Read: backend failures of the queries are not modelled. Read returns false only when no reader is set, and a throw from a failing `ReadData` is not a path of the model.
- Engine.MySqlStream.Delete: backend failures are not modelled; Delete always returns true. The autocommit switch it makes is not modelled either.
- Engine.MySqlStream.Get: backend failures are not modelled. The description is a value, so its copy into the shared buffer (`descr` aliasing `mBuf`) is not captured.
- Engine.MySqlStream.LookupById: backend failures are not modelled.
- The `column` argument of the private Read, Delete and Lookup is fixed to `id`, as every public entry point passes it. Scans on `timestamp` and the invalid-column throw are unreachable through the interface and are not modelled. The same goes for the `id` written into the upper bound of a two-sided delete filter, which equals the column there.
- The contents of the shared buffer after a call are not stated beyond what each read puts in it.
- 64-bit wrap-around of ids, sizes and timestamps: the model's integers are unbounded.
- Engine.MySqlStream.WriteStream: a header whose description is NULL is not a modelled input. The source formats `descr` into the INSERT with `'%s'`, and passing NULL to `%s` is undefined behaviour (glibc stores the text `(null)`), so the model excludes it. WriteStream and WriteBuffer require a description, and the tables' invariant records that every stored row has one.
- Escaping of quotes in the description, the 120-character `descr` column and the 256-byte SQL buffer: the description is stored as given.
- Concurrency with other connections and real lock waiting: the lock is a state field.
- `Destroy` and object deletion, and the demo programs (test app, reader and writer): they are drivers, not engine behaviour.
- The constructor's `memset` of the buffer: the buffer starts zeroed whether or not the connection succeeds.

=== FILE: chunking.dfy ===
/** How a byte source is cut into BLOB-sized pieces by a loop of
    `read(mBuf, sizeof(mBuf))` calls, and how the pieces are put back
    together. */
module Chunking {
  import opened Stream

  /** How many bytes one `read` of at most `MaxCell` bytes returns when
      `remaining` bytes are left. */
  function ReadCount(remaining: nat): (n: nat)
    ensures n <= MaxCell && n <= remaining
    ensures n == 0 <==> remaining == 0
    ensures n < MaxCell ==> n == remaining
  {
    if remaining <= MaxCell then remaining else MaxCell
  }

  /** The non-empty reads of a source holding `s`, in order. A read that
      returns zero bytes produces no piece. */
  function Pieces(s: seq<byte>): (ps: seq<seq<byte>>)
    ensures |s| == 0 <==> ps == []
    decreases |s|
  {
    if |s| == 0 then []
    else
      var n := ReadCount(|s|);
      [s[..n]] + Pieces(s[n..])
  }

  /** Every piece is a non-empty read that fits the buffer. */
  lemma {:induction false} PiecesBounded(s: seq<byte>)
    ensures forall i :: 0 <= i < |Pieces(s)| ==> 0 < |Pieces(s)[i]| <= MaxCell
    decreases |s|
  {
    if |s| > 0 {
      var n := ReadCount(|s|);
      PiecesBounded(s[n..]);
      assert Pieces(s) == [s[..n]] + Pieces(s[n..]);
    }
  }

  /** A read loop over a source whose unread part is `rest`, having taken
      the pieces `taken`: its next read of `n` bytes is the next piece, or
      ends the pieces when nothing is left. */
  lemma ConsumeStep(s: seq<byte>, taken: seq<seq<byte>>, rest: seq<byte>)
    requires Pieces(s) == taken + Pieces(rest)
    ensures var n := ReadCount(|rest|);
      && (n == 0 ==> Pieces(s) == taken)
      && (n > 0 ==> Pieces(s) == (taken + [rest[..n]]) + Pieces(rest[n..]))
  {
    var n := ReadCount(|rest|);
    if n > 0 {
      assert Pieces(rest) == [rest[..n]] + Pieces(rest[n..]);
      assert taken + ([rest[..n]] + Pieces(rest[n..])) == (taken + [rest[..n]]) + Pieces(rest[n..]);
    } else {
      assert taken + [] == taken;
    }
  }

  /** Concatenation of pieces in order. */
  function Flatten(ps: seq<seq<byte>>): seq<byte>
  {
    if ps == [] then [] else ps[0] + Flatten(ps[1..])
  }

  /** Sum of the lengths of the pieces. */
  function TotalLen(ps: seq<seq<byte>>): nat
  {
    if ps == [] then 0 else |ps[0]| + TotalLen(ps[1..])
  }

  /** Reassembling the pieces gives back the source, byte for byte. */
  lemma {:induction false} FlattenPieces(s: seq<byte>)
    ensures Flatten(Pieces(s)) == s
    decreases |s|
  {
    if |s| > 0 {
      var n := ReadCount(|s|);
      FlattenPieces(s[n..]);
      assert Pieces(s)[1..] == Pieces(s[n..]);
      assert s == s[..n] + s[n..];
    }
  }

  /** The recorded total length is the length of the reassembly. */
  lemma {:induction false} TotalLenFlatten(ps: seq<seq<byte>>)
    ensures TotalLen(ps) == |Flatten(ps)|
  {
    if ps != [] {
      TotalLenFlatten(ps[1..]);
    }
  }

  /** One piece per started block of `MaxCell` bytes. */
  lemma {:induction false} PiecesCount(s: seq<byte>)
    ensures |Pieces(s)| == (|s| + MaxCell - 1) / MaxCell
    decreases |s|
  {
    if |s| > MaxCell {
      PiecesCount(s[MaxCell..]);
    }
  }

  /** A cell that fits the buffer is delivered as a single piece. */
  lemma PiecesOfCell(d: seq<byte>)
    requires 0 < |d| <= MaxCell
    ensures Pieces(d) == [d]
  {
    assert d[..|d|] == d;
    assert d[|d|..] == [];
  }

  lemma {:induction false} FlattenAppend(a: seq<seq<byte>>, b: seq<seq<byte>>)
    ensures Flatten(a + b) == Flatten(a) + Flatten(b)
  {
    if a != [] {
      assert (a + b)[1..] == a[1..] + b;
      FlattenAppend(a[1..], b);
    } else {
      assert a + b == b;
    }
  }

  lemma {:induction false} TotalLenAppend(a: seq<seq<byte>>, b: seq<seq<byte>>)
    ensures TotalLen(a + b) == TotalLen(a) + TotalLen(b)
  {
    if a != [] {
      assert (a + b)[1..] == a[1..] + b;
      TotalLenAppend(a[1..], b);
    } else {
      assert a + b == b;
    }
  }
}

=== FILE: engine.dfy ===
/** `MySqlStream`: the stream-storage engine over one backend connection.
    The connection is replaced by the state it stands for: the two tables
    and their auto-increment counters, the table lock the connection holds,
    and the names of the tables in the selected database. The reader is a
    function of the calls it has received; `trace` records those calls. */
module Engine {
  import opened Stream
  import opened Chunking
  import opened Range
  import opened Tables
  import opened Scan
  import Schema

  /** What the pointer overload of Write does with its caller: it returns a
      result and the header it wrote the new id into, or it throws out of
      the engine. */
  datatype WriteOutcome = Returned(ok: bool, hdr: Option<StreamHeader>) | Threw

  /** `ORDER BY id ASC` (GetFirst) or `ORDER BY id DESC` (GetLast). */
  datatype Order = Asc | Desc

  /** Write issues its backend statements in this order, each of which may
      fail: 0 inserts the header, 1 fetches `LAST_INSERT_ID()`, `2 + i`
      inserts chunk `i`, `2 + n` patches the size of a stream of `n` chunks
      and `3 + n` commits. `failStep` names the one that fails, if any. */
  predicate FailsAt(failStep: Option<nat>, step: nat)
  {
    failStep == Some(step)
  }

  /** One of the first `n` chunk inserts of a Write fails. */
  predicate ChunkInsertFails(failStep: Option<nat>, n: nat)
  {
    failStep.Some? && 2 <= failStep.value < 2 + n
  }

  /** No statement of a Write of `n` chunks fails. */
  predicate NoFailure(failStep: Option<nat>, n: nat)
  {
    failStep.None? || failStep.value > 3 + n
  }

  /** A Write of `n` chunks succeeds exactly when none of its statements
      fails: header insert, id fetch, chunk inserts, size patch, commit. */
  lemma NoFailureSteps(failStep: Option<nat>, n: nat)
    ensures NoFailure(failStep, n) <==>
      && !FailsAt(failStep, 0) && !FailsAt(failStep, 1) && !ChunkInsertFails(failStep, n)
      && !FailsAt(failStep, 2 + n) && !FailsAt(failStep, 3 + n)
  {
  }

  /** What one query of `Read` leaves to do. The reader stopping, or a
      short batch, ends the read; after a full batch the rows still to read
      are those above the last row's id, fewer than before. */
  lemma QueryOutcome(hs: seq<StreamHeader>, cs: seq<Chunk>, v: Visitor, cursor: Bounds,
                     batch: seq<StreamHeader>, last: StreamHeader, tr0: seq<Event>, tr: seq<Event>, stopped: bool)
    requires Ascending(hs)
    requires forall i :: 0 <= i < |hs| ==> hs[i].id > 0
    requires batch == Batch(hs, cursor)
    requires !stopped ==> ScanSpec(Select(hs, cursor), cs, v, tr0) == ScanSpec(Select(hs, cursor)[|batch|..], cs, v, tr)
    requires stopped ==> ScanSpec(Select(hs, cursor), cs, v, tr0) == Progress(tr, true)
    requires !stopped && batch != [] ==> last == batch[|batch| - 1]
    ensures stopped || |batch| < BatchLimit ==> ScanSpec(Select(hs, cursor), cs, v, tr0).trace == tr
    ensures !stopped && |batch| == BatchLimit ==>
      && ScanSpec(Select(hs, cursor), cs, v, tr0) == ScanSpec(Select(hs, Advance(cursor, last.id)), cs, v, tr)
      && |Select(hs, Advance(cursor, last.id))| < |Select(hs, cursor)|
  {
    if !stopped {
      if |batch| < BatchLimit {
        assert Select(hs, cursor)[|batch|..] == [];
      } else {
        assert |batch| == BatchLimit;
        assert last == batch[BatchLimit - 1];
        NextBatch(hs, cursor, last);
      }
    }
  }

  class MySqlStream {
    /** `mCon` is held. */
    var connected: bool
    /** `mReader`. */
    var reader: Option<Visitor>
    /** `mBuf`: the shared buffer every chunk passes through. */
    var buf: array<byte>
    /** The `stream` table, in id order. */
    var headers: seq<StreamHeader>
    /** The `streamdata` table, in id order. */
    var chunks: seq<Chunk>
    /** `AUTO_INCREMENT` of `stream`. */
    var nextId: nat
    /** `AUTO_INCREMENT` of `streamdata`. */
    var nextChunkId: nat
    /** `LOCK TABLES` state of the connection. */
    var lock: LockMode
    /** The calls the reader has received so far. */
    var trace: seq<Event>
    /** Tables of the selected database. */
    var tables: seq<string>

    /** The committed tables. */
    function State(): Store
      reads this`headers, this`chunks, this`nextId, this`nextChunkId
    {
      Store(headers, chunks, nextId, nextChunkId)
    }

    /** The buffer has its fixed size, the tables are valid, and a
        connected engine has both tables. */
    ghost predicate Ready()
      reads this`buf, this`connected, this`tables
      reads this`headers, this`chunks, this`nextId, this`nextChunkId
    {
      && buf.Length == MaxCell
      && Tables.Valid(State())
      && (connected ==> Schema.StreamTable in tables && Schema.StreamDataTable in tables)
    }

    /** Between calls: ready, and no table lock is held. */
    ghost predicate Valid()
      reads this`buf, this`connected, this`tables, this`lock
      reads this`headers, this`chunks, this`nextId, this`nextChunkId
    {
      lock == NoLock && Ready()
    }

    /** Connects and initialises the database. `connects` says whether the
        driver connects; `apiMajor` is the connector's API major version;
        `schemas` the databases on the server; `existingTables` the tables of
        `database`, holding `existing` rows; `createStreamOk` and `createDataOk` whether
        CREATE TABLE succeeds for the header and the chunk table. The connection is dropped when initialisation fails. */
    constructor (connects: bool, apiMajor: int, schemas: seq<string>, database: string,
                 existingTables: seq<string>, createStreamOk: bool, createDataOk: bool, existing: Store,
                 reader: Option<Visitor>)
      requires Tables.Valid(existing)
      requires Schema.StreamTable !in existingTables ==> existing.headers == [] && existing.chunks == []
      requires Schema.StreamDataTable !in existingTables ==> existing.chunks == []
      ensures Valid() && fresh(buf)
      ensures connected <==>
        && connects && apiMajor > 0 && database in schemas
        && (Schema.StreamTable in existingTables || createStreamOk)
        && (Schema.StreamDataTable in existingTables || createDataOk)
      ensures State() == existing && this.reader == reader && trace == []
    {
      this.reader := reader;
      buf := new byte[MaxCell](_ => 0);
      headers, chunks := existing.headers, existing.chunks;
      nextId, nextChunkId := existing.nextId, existing.nextChunkId;
      lock := NoLock;
      trace := [];
      tables := existingTables;
      connected := connects;
      new;
      if connects {
        var ok := InitDatabase(apiMajor, schemas, database, createStreamOk, createDataOk);
        if !ok {
          connected := false;
        }
      }
    }

    /** Checks the API version and that the database exists, then makes sure
        both tables exist, the header table first. */
    method InitDatabase(apiMajor: int, schemas: seq<string>, database: string,
                        createStreamOk: bool, createDataOk: bool)
      returns (ok: bool)
      modifies this`tables
      ensures ok <==>
        && apiMajor > 0 && database in schemas
        && (Schema.StreamTable in old(tables) || createStreamOk)
        && (Schema.StreamDataTable in old(tables) || createDataOk)
      ensures ok ==> Schema.StreamTable in tables && Schema.StreamDataTable in tables
      ensures forall t :: t in old(tables) ==> t in tables
    {
      if apiMajor <= 0 {
        return false;
      }
      var hasSchema := Schema.SearchNames(schemas, database);
      if !hasSchema {
        return false;
      }
      ok := InitTable(Schema.StreamTable, createStreamOk);
      if ok {
        ok := InitTable(Schema.StreamDataTable, createDataOk);
      }
    }

    /** `InitTranTable` / `InitTranDataTable`: create the table only when a
        name search does not find it. */
    method InitTable(name: string, createOk: bool) returns (ok: bool)
      modifies this`tables
      ensures ok <==> name in old(tables) || createOk
      ensures tables == if name in old(tables) || !createOk then old(tables) else old(tables) + [name]
    {
      var hasTable := Schema.SearchNames(tables, name);
      if hasTable {
        ok := true;
      } else if createOk {
        tables := tables + [name];
        ok := true;
      } else {
        ok := false;
      }
    }

    /** `IsValid`: a connection is held. */
    method IsValid() returns (b: bool)
      ensures b == connected
    {
      b := connected;
    }

    /** Hands one call to the reader and records it. The call carries the
        lock held while it is made. */
    method Notify(e: Event) returns (keep: bool)
      requires reader.Some?
      requires e.lock == lock
      modifies this`trace
      ensures trace == old(trace) + [e]
      ensures keep == reader.value(trace)
    {
      trace := trace + [e];
      keep := reader.value(trace);
    }

    /** One `read` of at most `MaxCell` bytes from a source whose unread
        part is `rest`, into the shared buffer. */
    method ReadSource(rest: seq<byte>) returns (n: nat)
      requires buf.Length == MaxCell
      modifies buf
      ensures n == ReadCount(|rest|)
      ensures buf[..n] == rest[..n]
    {
      n := ReadCount(|rest|);
      forall k | 0 <= k < n {
        buf[k] := rest[k];
      }
    }

    /** Restores the tables as they were when the transaction began. */
    method Rollback(saved: Store)
      modifies this`headers, this`chunks, this`nextId, this`nextChunkId
      ensures State() == saved
    {
      headers, chunks, nextId, nextChunkId := saved.headers, saved.chunks, saved.nextId, saved.nextChunkId;
    }

    /** `INSERT INTO streamdata`: one more chunk of stream `masterId`,
        extending the chunks inserted so far by this Write. */
    method AppendChunk(masterId: nat, data: seq<byte>, ghost start: nat, ghost before: seq<Chunk>,
                       ghost inserted: seq<seq<byte>>)
      requires chunks == before + NewChunks(start, masterId, inserted) && nextChunkId == start + |inserted|
      modifies this`chunks, this`nextChunkId
      ensures chunks == before + NewChunks(start, masterId, inserted + [data])
      ensures nextChunkId == old(nextChunkId) + 1
    {
      NewChunksSnoc(start, masterId, inserted, data);
      chunks := chunks + [Chunk(nextChunkId, masterId, data)];
      nextChunkId := nextChunkId + 1;
    }

    /** One turn of Write's chunk loop: a read of at most `MaxCell` bytes
        into the shared buffer and, when it is not empty, the chunk insert,
        which is statement `2 + count` of the Write. `rest` is the unread
        part of `source`; `inserted` are the pieces inserted so far and
        `taken` those inserted after this turn. */
    method ChunkStep(masterId: nat, rest: seq<byte>, count: nat, failStep: Option<nat>,
                     ghost source: seq<byte>, ghost start: nat, ghost before: seq<Chunk>,
                     ghost inserted: seq<seq<byte>>)
      returns (n: nat, failed: bool, ghost taken: seq<seq<byte>>)
      requires buf.Length == MaxCell && count == |inserted|
      requires Pieces(source) == inserted + Pieces(rest)
      requires chunks == before + NewChunks(start, masterId, inserted) && nextChunkId == start + count
      modifies this`chunks, this`nextChunkId, buf
      ensures n == ReadCount(|rest|)
      ensures failed <==> n > 0 && FailsAt(failStep, 2 + count)
      ensures failed ==> |Pieces(source)| > count && ChunkInsertFails(failStep, count + 1)
      ensures !failed ==> (ChunkInsertFails(failStep, |taken|) <==> ChunkInsertFails(failStep, count))
      ensures !failed ==> && |taken| == (if n > 0 then count + 1 else count)
                          && Pieces(source) == taken + Pieces(rest[n..])
                          && chunks == before + NewChunks(start, masterId, taken)
                          && nextChunkId == start + |taken|
      ensures n == 0 ==> Pieces(source) == inserted
    {
      ConsumeStep(source, inserted, rest);
      n := ReadSource(rest);
      taken := inserted;
      failed := false;
      if n > 0 {
        if FailsAt(failStep, 2 + count) {
          return n, true, taken;
        }
        AppendChunk(masterId, buf[..n], start, before, inserted);
        taken := inserted + [buf[..n]];
      }
    }

    /** The chunk loop of Write: read the source through the shared buffer
        until a short read, inserting one chunk of stream `masterId` for
        every non-empty read. Insert `i` is statement `2 + i`; when it fails
        the loop stops and returns false. */
    method InsertChunks(masterId: nat, source: seq<byte>, failStep: Option<nat>)
      returns (ok: bool, total: nat, count: nat)
      requires buf.Length == MaxCell
      modifies this`chunks, this`nextChunkId, buf
      ensures ok <==> !ChunkInsertFails(failStep, |Pieces(source)|)
      ensures ok ==> && total == |source| && count == |Pieces(source)|
                     && chunks == old(chunks) + NewChunks(old(nextChunkId), masterId, Pieces(source))
                     && nextChunkId == old(nextChunkId) + count
    {
      ghost var c0, n0 := chunks, nextChunkId;
      var rest := source;
      total, count := 0, 0;
      var good := true;
      ghost var inserted: seq<seq<byte>> := [];
      while good
        invariant total + |rest| == |source| && count == |inserted|
        invariant Pieces(source) == inserted + Pieces(rest)
        invariant !good ==> Pieces(source) == inserted && rest == []
        invariant chunks == c0 + NewChunks(n0, masterId, inserted) && nextChunkId == n0 + count
        invariant !ChunkInsertFails(failStep, count)
        decreases |rest|, if good then 1 else 0
      {
        var n, failed, taken := ChunkStep(masterId, rest, count, failStep, source, n0, c0, inserted);
        if failed {
          return false, total, count;
        }
        if n > 0 {
          count := count + 1;
        }
        if n < MaxCell {
          good := false;
          assert Pieces(rest[n..]) == [];
          assert taken + [] == taken;
        }
        rest, total := rest[n..], total + n;
        inserted := taken;
      }
      ok := true;
    }

    /** Write from a byte source: inside one transaction, insert the header
        with size 0, insert one chunk per non-empty read of at most `MaxCell`
        bytes, patch the size with the total read and commit; on success the
        new id goes back into the caller's header. Any failing statement, or a
        NULL header, rolls everything back and returns false. */
    method WriteStream(hdr: Option<StreamHeader>, source: seq<byte>, failStep: Option<nat>)
      returns (ok: bool, out: Option<StreamHeader>)
      requires Valid() && connected
      requires hdr.Some? ==> hdr.value.descr.Text?
      modifies this`headers, this`chunks, this`nextId, this`nextChunkId, buf
      ensures Valid()
      ensures ok <==> hdr.Some? && NoFailure(failStep, |Pieces(source)|)
      ensures ok ==> (out == Some(hdr.value.(id := old(nextId)))
                      && State() == Committed(old(State()), hdr.value, source))
      ensures !ok ==> out == hdr && State() == old(State())
    {
      if hdr.None? {
        return false, hdr;
      }
      var h := hdr.value;
      var saved := State();
      NoFailureSteps(failStep, |Pieces(source)|);
      if FailsAt(failStep, 0) {
        return false, hdr;
      }
      var masterId := nextId;
      headers := headers + [h.(id := masterId, size := 0)];
      nextId := nextId + 1;
      if FailsAt(failStep, 1) {
        Rollback(saved);
        return false, hdr;
      }
      var chunksOk, total, count := InsertChunks(masterId, source, failStep);
      if !chunksOk || FailsAt(failStep, 2 + count) {
        Rollback(saved);
        return false, hdr;
      }
      headers := saved.headers + [h.(id := masterId, size := total)];
      if FailsAt(failStep, 3 + count) {
        Rollback(saved);
        return false, hdr;
      }
      assert State() == Committed(saved, h, source);
      WriteCommitted(saved, h, source);
      ok, out := true, Some(h.(id := masterId));
    }

    /** Write from a buffer of `hdr.size` bytes: a NULL header or buffer
        throws out of the engine; otherwise it is the stream Write of the
        first `hdr.size` bytes. */
    method WriteBuffer(hdr: Option<StreamHeader>, data: Option<seq<byte>>, failStep: Option<nat>)
      returns (r: WriteOutcome)
      requires Valid() && connected
      requires hdr.Some? && data.Some? ==> hdr.value.size <= |data.value| && hdr.value.descr.Text?
      modifies this`headers, this`chunks, this`nextId, this`nextChunkId, buf
      ensures Valid()
      ensures r.Threw? <==> hdr.None? || data.None?
      ensures r.Threw? ==> State() == old(State())
      ensures r.Returned? ==>
        var source := data.value[..hdr.value.size];
        && (r.ok <==> NoFailure(failStep, |Pieces(source)|))
        && r.hdr == (if r.ok then Some(hdr.value.(id := old(nextId))) else hdr)
        && State() == (if r.ok then Committed(old(State()), hdr.value, source) else old(State()))
    {
      if hdr.None? || data.None? {
        return Threw;
      }
      var ok, out := WriteStream(hdr, data.value[..hdr.value.size], failStep);
      r := Returned(ok, out);
    }

    /** The BLOB loop of `ReadData` for one chunk `d`: DATA calls for its
        reads of at most `MaxCell` bytes through the shared buffer, while the
        reader answers true. `more` are the pieces still to come after it. */
    method DeliverChunk(h: StreamHeader, d: seq<byte>, ghost more: seq<seq<byte>>) returns (keep: bool)
      requires reader.Some? && lock == ReadLock && buf.Length == MaxCell
      modifies this`trace, buf
      ensures keep ==> DeliverPieces(h, Pieces(d) + more, reader.value, old(trace))
                       == DeliverPieces(h, more, reader.value, trace)
      ensures !keep ==> DeliverPieces(h, Pieces(d) + more, reader.value, old(trace)) == Progress(trace, true)
    {
      var v := reader.value;
      ghost var target := DeliverPieces(h, Pieces(d) + more, v, trace);
      var rest := d;
      var good := true;
      keep := true;
      while keep && good
        invariant keep ==> target == DeliverPieces(h, Pieces(rest) + more, v, trace)
        invariant !keep ==> target == Progress(trace, true)
        invariant !good ==> rest == []
        decreases |rest|, if good then 1 else 0
      {
        var n := ReadSource(rest);
        if n > 0 {
          ghost var ps := Pieces(rest) + more;
          assert Pieces(rest) == [rest[..n]] + Pieces(rest[n..]);
          assert ps[0] == buf[..n] && ps[1..] == Pieces(rest[n..]) + more;
          keep := Notify(DataEvent(h, buf[..n]));
        }
        if n < MaxCell {
          good := false;
        }
        rest := rest[n..];
      }
      if keep {
        assert Pieces(rest) + more == more;
      }
    }

    /** `ReadData`: query the stream's chunks, call BEGIN, hand over each
        chunk while the reader answers true, call END in every case, and
        report whether the reader stopped. */
    method ReadData(h: StreamHeader) returns (stopped: bool)
      requires reader.Some? && lock == ReadLock && buf.Length == MaxCell
      modifies this`trace, buf
      ensures Progress(trace, stopped) == ReadDataSpec(h, chunks, reader.value, old(trace))
    {
      var v := reader.value;
      var ds := ChunkData(chunks, h.id);
      var keep := Notify(BeginEvent(h));
      ghost var target := if keep then DeliverPieces(h, AllPieces(ds), v, trace) else Progress(trace, true);
      var j := 0;
      while keep && j < |ds|
        invariant j <= |ds|
        invariant keep ==> target == DeliverPieces(h, AllPieces(ds[j..]), v, trace)
        invariant !keep ==> target == Progress(trace, true)
        decreases |ds| - j
      {
        assert ds[j..][0] == ds[j] && ds[j..][1..] == ds[j + 1..];
        keep := DeliverChunk(h, ds[j], AllPieces(ds[j + 1..]));
        j := j + 1;
      }
      if keep {
        assert ds[j..] == [];
      }
      var _ := Notify(EndEvent(h));
      stopped := !keep;
    }

    /** One query of `Read`: the rows of `batch`, which start `all`, in
        order until the reader stops; also returns the last row handled. */
    method ReadBatch(batch: seq<StreamHeader>, ghost all: seq<StreamHeader>) returns (stopped: bool, last: StreamHeader)
      requires reader.Some? && lock == ReadLock && buf.Length == MaxCell
      requires batch <= all
      modifies this`trace, buf
      ensures !stopped ==> ScanSpec(all, chunks, reader.value, old(trace))
                           == ScanSpec(all[|batch|..], chunks, reader.value, trace)
      ensures stopped ==> ScanSpec(all, chunks, reader.value, old(trace)) == Progress(trace, true)
      ensures !stopped && batch != [] ==> last == batch[|batch| - 1]
    {
      var v := reader.value;
      ghost var target := ScanSpec(all, chunks, v, trace);
      stopped := false;
      last := StreamHeader(0, Null, 0, 0, 0);
      var i := 0;
      while i < |batch| && !stopped
        invariant i <= |batch|
        invariant !stopped && i > 0 ==> last == batch[i - 1]
        invariant !stopped ==> target == ScanSpec(all[i..], chunks, v, trace)
        invariant stopped ==> target == Progress(trace, true)
      {
        last := batch[i];
        assert all[i..][0] == last && all[i..][1..] == all[i + 1..];
        ghost var p := StreamSpec(last, chunks, v, trace);
        if last.size == 0 {
          var _ := Notify(BeginEvent(last));
          var _ := Notify(EndEvent(last));
          assert trace == p.trace;
        } else {
          stopped := ReadData(last);
        }
        assert p == Progress(trace, stopped);
        i := i + 1;
      }
    }

    /** The page query `SELECT * … WHERE <range> ORDER BY id ASC LIMIT 100`,
        run under the READ lock: at most 100 rows, the first of those the
        range selects, and all of them when fewer come back. */
    method QueryPage(cursor: Bounds) returns (batch: seq<StreamHeader>)
      requires lock == ReadLock
      ensures batch == Batch(headers, cursor)
      ensures |batch| <= BatchLimit && batch <= Select(headers, cursor)
      ensures |batch| < BatchLimit ==> batch == Select(headers, cursor)
    {
      batch := Batch(headers, cursor);
    }

    /** One query of `Read`: at most `BatchLimit` rows from `cursor` on,
        under the READ lock. `done` says the read is over, because the reader
        stopped or the batch was short; otherwise `next` bounds the next
        query below by the last row's id. */
    method ReadQuery(cursor: Bounds) returns (done: bool, next: Bounds)
      requires lock == NoLock && buf.Length == MaxCell && reader.Some?
      requires Ascending(headers) && forall i :: 0 <= i < |headers| ==> headers[i].id > 0
      modifies this`lock, this`trace, buf
      ensures lock == NoLock
      ensures done ==> next == cursor
      ensures done ==> ScanSpec(Select(headers, cursor), chunks, reader.value, old(trace)).trace == trace
      ensures !done ==> && ScanSpec(Select(headers, cursor), chunks, reader.value, old(trace))
                           == ScanSpec(Select(headers, next), chunks, reader.value, trace)
                        && |Select(headers, next)| < |Select(headers, cursor)|
    {
      ghost var all := Select(headers, cursor);
      lock := ReadLock;
      var batch := QueryPage(cursor);
      var stopped, last := ReadBatch(batch, all);
      lock := NoLock;
      QueryOutcome(headers, chunks, reader.value, cursor, batch, last, old(trace), trace, stopped);
      done := stopped || |batch| < BatchLimit;
      next := if done then cursor else Advance(cursor, last.id);
    }

    /** `Read` on the id column: repeated queries of at most `BatchLimit`
        rows in ascending id order, each under the READ lock; a size-0 row
        gets BEGIN and END, any other goes through ReadData; a stop by the
        reader ends the read, and so does a short batch; otherwise the last
        row's id becomes the exclusive lower bound of the next query. With no
        reader it returns false and delivers nothing. */
    method Read(b: Bounds) returns (ok: bool)
      requires Valid() && (reader.Some? ==> connected)
      modifies this`lock, this`trace, buf
      ensures Valid()
      ensures ok <==> reader.Some?
      ensures !ok ==> trace == old(trace)
      ensures ok ==> trace == ScanSpec(Select(headers, b), chunks, reader.value, old(trace)).trace
    {
      if reader.None? {
        return false;
      }
      ghost var target := ScanSpec(Select(headers, b), chunks, reader.value, trace);
      ValidOrdered(State());
      var cursor := b;
      var done := false;
      while !done
        invariant lock == NoLock
        invariant done ==> target.trace == trace
        invariant !done ==> target == ScanSpec(Select(headers, cursor), chunks, reader.value, trace)
        decreases |Select(headers, cursor)|, if done then 0 else 1
      {
        done, cursor := ReadQuery(cursor);
      }
      ok := true;
    }

    /** `ReadById`. */
    method ReadById(first: nat, inclusiveFirst: bool, last: nat, inclusiveLast: bool) returns (ok: bool)
      requires Valid() && (reader.Some? ==> connected)
      modifies this`lock, this`trace, buf
      ensures Valid()
      ensures ok <==> reader.Some?
      ensures !ok ==> trace == old(trace)
      ensures ok ==> trace == ScanSpec(Select(headers, Bounds(first, inclusiveFirst, last, inclusiveLast)),
                                       chunks, reader.value, old(trace)).trace
    {
      ok := Read(Bounds(first, inclusiveFirst, last, inclusiveLast));
    }

    /** `Delete` on the id column: under the WRITE lock, delete the headers
        in range (their chunks go by the cascade), then, with `resetId` and
        both bounds 0, reset both counters to 1. */
    method Delete(b: Bounds, resetId: bool) returns (ok: bool)
      requires Valid() && connected
      modifies this`headers, this`chunks, this`nextId, this`nextChunkId, this`lock
      ensures Valid() && ok
      ensures State() == Deleted(old(State()), b, resetId)
    {
      ghost var saved := State();
      DeletedValid(saved, b, resetId);
      lock := WriteLock;
      DeleteRows(b, resetId);
      lock := NoLock;
      ok := true;
    }

    /** The statements of `Delete` run under the WRITE lock: the cascading
        `DELETE` and, when asked for on an unbounded range, the two
        `AUTO_INCREMENT = 1` resets. */
    method DeleteRows(b: Bounds, resetId: bool)
      requires lock == WriteLock
      modifies this`headers, this`chunks, this`nextId, this`nextChunkId
      ensures State() == Deleted(old(State()), b, resetId)
    {
      var removed := Ids(Select(headers, b));
      headers, chunks := Keep(headers, b), Cascade(chunks, removed);
      if resetId && b.first == 0 && b.last == 0 {
        nextId, nextChunkId := 1, 1;
      }
    }

    /** `DeleteById`: a range delete that never resets the counters. */
    method DeleteById(first: nat, inclusiveFirst: bool, last: nat, inclusiveLast: bool) returns (ok: bool)
      requires Valid() && connected
      modifies this`headers, this`chunks, this`nextId, this`nextChunkId, this`lock
      ensures Valid() && ok
      ensures State() == Deleted(old(State()), Bounds(first, inclusiveFirst, last, inclusiveLast), false)
    {
      ok := Delete(Bounds(first, inclusiveFirst, last, inclusiveLast), false);
    }

    /** `DeleteAll`: the unbounded delete, without counter reset. */
    method DeleteAll() returns (ok: bool)
      requires Valid() && connected
      modifies this`headers, this`chunks, this`nextId, this`nextChunkId, this`lock
      ensures Valid() && ok
      ensures headers == [] && chunks == []
      ensures nextId == old(nextId) && nextChunkId == old(nextChunkId)
    {
      DeleteAllEmpties(State(), Unbounded);
      ok := Delete(Unbounded, false);
    }

    /** `Get`: under the READ lock, the first row in the given id order
        written into the caller's header (its `type` untouched), or, on an
        empty table, id, size and timestamp 0 and a NULL description. A
        NULL header makes it return false. */
    method Get(hdr: Option<StreamHeader>, order: Order) returns (ok: bool, out: Option<StreamHeader>)
      requires Valid() && connected
      modifies this`lock
      ensures Valid()
      ensures ok <==> hdr.Some?
      ensures !ok ==> out == hdr
      ensures ok && headers == [] ==> out == Some(hdr.value.(id := 0, descr := Null, size := 0, timestamp := 0))
      ensures ok && headers != [] ==>
        && out == Some(CopyRow(hdr.value, headers[if order == Asc then 0 else |headers| - 1]))
        && out.value.descr.Text?
        && (forall k :: 0 <= k < |headers| ==>
              if order == Asc then out.value.id <= headers[k].id else out.value.id >= headers[k].id)
    {
      if hdr.None? {
        return false, hdr;
      }
      lock := ReadLock;
      var row := QueryEdge(order);
      lock := NoLock;
      if row.None? {
        out := Some(hdr.value.(id := 0, descr := Null, size := 0, timestamp := 0));
      } else {
        out := Some(CopyRow(hdr.value, row.value));
      }
      ok := true;
    }

    /** `SELECT * FROM stream ORDER BY id <order> LIMIT 1`, run under the
        READ lock: no row on an empty table, otherwise the row with the
        smallest (ASC) or largest (DESC) id. */
    method QueryEdge(order: Order) returns (row: Option<StreamHeader>)
      requires lock == ReadLock && Ascending(headers)
      ensures row.None? <==> headers == []
      ensures row.Some? ==> row.value in headers
      ensures row.Some? ==> forall k :: 0 <= k < |headers| ==>
        if order == Asc then row.value.id <= headers[k].id else row.value.id >= headers[k].id
      ensures row.Some? ==> row.value == headers[if order == Asc then 0 else |headers| - 1]
    {
      if headers == [] {
        row := None;
      } else {
        row := Some(if order == Asc then headers[0] else headers[|headers| - 1]);
      }
    }

    /** `GetFirst`: the row with the smallest id. */
    method GetFirst(hdr: Option<StreamHeader>) returns (ok: bool, out: Option<StreamHeader>)
      requires Valid() && connected
      modifies this`lock
      ensures Valid()
      ensures ok <==> hdr.Some?
      ensures !ok ==> out == hdr
      ensures ok && headers == [] ==> out == Some(hdr.value.(id := 0, descr := Null, size := 0, timestamp := 0))
      ensures ok && headers != [] ==>
        && out == Some(CopyRow(hdr.value, headers[0]))
        && forall k :: 0 <= k < |headers| ==> out.value.id <= headers[k].id
    {
      ok, out := Get(hdr, Asc);
    }

    /** `GetLast`: the row with the largest id. */
    method GetLast(hdr: Option<StreamHeader>) returns (ok: bool, out: Option<StreamHeader>)
      requires Valid() && connected
      modifies this`lock
      ensures Valid()
      ensures ok <==> hdr.Some?
      ensures !ok ==> out == hdr
      ensures ok && headers == [] ==> out == Some(hdr.value.(id := 0, descr := Null, size := 0, timestamp := 0))
      ensures ok && headers != [] ==>
        && out == Some(CopyRow(hdr.value, headers[|headers| - 1]))
        && forall k :: 0 <= k < |headers| ==> out.value.id >= headers[k].id
    {
      ok, out := Get(hdr, Desc);
    }

    /** `Lookup` on the id column: under the READ lock, whether some row has
        that id. `hasFound` says whether the caller passed a place for the
        answer; without one it returns false. */
    method LookupById(id: nat, hasFound: bool) returns (ok: bool, found: bool)
      requires Valid() && connected
      modifies this`lock
      ensures Valid()
      ensures ok == hasFound
      ensures ok ==> (found <==> exists k :: 0 <= k < |headers| && headers[k].id == id)
    {
      if !hasFound {
        return false, false;
      }
      lock := ReadLock;
      found := QueryId(id);
      lock := NoLock;
      ok := true;
    }

    /** `SELECT 1 FROM stream WHERE id = <id> LIMIT 1`, run under the READ
        lock: whether it returns a row. */
    method QueryId(id: nat) returns (found: bool)
      requires lock == ReadLock
      ensures found <==> exists k :: 0 <= k < |headers| && headers[k].id == id
    {
      found := id in Ids(headers);
      if found {
        var g :| g in headers && g.id == id;
      }
    }
  }

  /** The fields `Get` copies from a row into the caller's header. */
  function CopyRow(hdr: StreamHeader, row: StreamHeader): (r: StreamHeader)
    ensures r.typ == hdr.typ
  {
    hdr.(id := row.id, descr := row.descr, size := row.size, timestamp := row.timestamp)
  }

  /** `CreateDBStream`: an engine that initialised, or nothing. */
  method CreateDBStream(connects: bool, apiMajor: int, schemas: seq<string>, database: string,
                        existingTables: seq<string>, createStreamOk: bool, createDataOk: bool, existing: Store,
                        reader: Option<Visitor>)
    returns (s: Option<MySqlStream>)
    requires Tables.Valid(existing)
    requires Schema.StreamTable !in existingTables ==> existing.headers == [] && existing.chunks == []
    requires Schema.StreamDataTable !in existingTables ==> existing.chunks == []
    ensures s.Some? <==>
      && connects && apiMajor > 0 && database in schemas
      && (Schema.StreamTable in existingTables || createStreamOk)
      && (Schema.StreamDataTable in existingTables || createDataOk)
    ensures s.Some? ==> fresh(s.value) && s.value.Valid() && s.value.connected
                        && s.value.State() == existing && s.value.trace == []
  {
    var e := new MySqlStream(connects, apiMajor, schemas, database, existingTables, createStreamOk, createDataOk, existing, reader);
    var valid := e.IsValid();
    if valid {
      s := Some(e);
    } else {
      s := None;
    }
  }
}

=== FILE: properties.dfy ===
/** Properties that tie several operations of the engine together: a Write
    read back by its id, what a ranged read visits, and what a later Write
    or Lookup sees after a delete. */
module Properties {
  import opened Stream
  import opened Chunking
  import opened Range
  import opened Tables
  import opened Scan

  /** A range filter applies row by row, so selecting from two runs of rows
      selects from each in turn. */
  lemma {:induction false} SelectAppend(a: seq<StreamHeader>, c: seq<StreamHeader>, b: Bounds)
    ensures Select(a + c, b) == Select(a, b) + Select(c, b)
  {
    if a == [] {
      assert a + c == c;
    } else {
      assert (a + c)[0] == a[0] && (a + c)[1..] == a[1..] + c;
      SelectAppend(a[1..], c, b);
    }
  }

  /** Rows none of which is in range select nothing. */
  lemma {:induction false} SelectNone(hs: seq<StreamHeader>, b: Bounds)
    requires forall i :: 0 <= i < |hs| ==> !InRange(hs[i].id, b)
    ensures Select(hs, b) == []
  {
    if hs != [] {
      assert forall i :: 0 <= i < |hs[1..]| ==> hs[1..][i] == hs[i + 1];
      SelectNone(hs[1..], b);
    }
  }

  /** Write, then `ReadById(id, true, id, true)` with the id it returned:
      the read visits exactly the new stream and, unless the reader stops
      it, hands over the written bytes, in pieces of at most `MaxCell`,
      which reassemble to the source and add up to the header's `size`. */
  lemma {:induction false} WriteThenReadBack(s: Store, h: StreamHeader, source: seq<byte>, v: Visitor, tr: seq<Event>)
    requires Valid(s) && h.descr.Text?
    ensures var r := Committed(s, h, source);
      var id := s.nextId;
      var p := ScanSpec(Select(r.headers, Bounds(id, true, id, true)), r.chunks, v, tr);
      var g := p.trace[|tr|..];
      && Select(r.headers, Bounds(id, true, id, true)) == [h.(id := id, size := |source|)]
      && Begins(g) == [h.(id := id, size := |source|)]
      && (!p.stopped ==> && Flatten(DataPieces(g)) == source
                         && TotalLen(DataPieces(g)) == |source|
                         && forall i :: 0 <= i < |DataPieces(g)| ==> 0 < |DataPieces(g)[i]| <= MaxCell)
  {
    var r := Committed(s, h, source);
    var id := s.nextId;
    var b := Bounds(id, true, id, true);
    var nh := h.(id := id, size := |source|);
    WriteCommitted(s, h, source);
    SelectNone(s.headers, b);
    SelectAppend(s.headers, [nh], b);
    assert Select([nh], b) == [nh];
    assert Select(r.headers, b) == [nh];
    assert r.headers[|s.headers|] == nh;
    var q := StreamSpec(nh, r.chunks, v, tr);
    var p := ScanSpec([nh], r.chunks, v, tr);
    assert p.trace == q.trace && p.stopped == q.stopped;
    StreamCounts(nh, r.chunks, v, tr);
    if !p.stopped {
      CompleteStreamDeliversPayload(r.headers, r.chunks, r.nextId, r.nextChunkId, |s.headers|, v, tr);
      TotalLenFlatten(DataPieces(q.trace[|tr|..]));
    }
  }

  /** A ranged read over valid tables visits rows in range only, in strictly
      ascending id order (so none twice), gives each visited row exactly one
      BEGIN and one END, and, unless the reader stopped it, visits every row
      in range. */
  lemma {:induction false} ReadVisitsRange(s: Store, b: Bounds, v: Visitor, tr: seq<Event>)
    requires Valid(s)
    ensures var p := ScanSpec(Select(s.headers, b), s.chunks, v, tr);
      var g := p.trace[|tr|..];
      && Begins(g) == Ends(g)
      && Ascending(Begins(g))
      && (forall h :: h in Begins(g) ==> h in s.headers && InRange(h.id, b))
      && (!p.stopped ==> forall h :: h in s.headers && InRange(h.id, b) ==> h in Begins(g))
  {
    var rows := Select(s.headers, b);
    var p := ScanSpec(rows, s.chunks, v, tr);
    var vs := Begins(p.trace[|tr|..]);
    ScanShape(rows, s.chunks, v, tr);
    SelectMembers(s.headers, b);
    SelectAscending(s.headers, b);
    assert forall i :: 0 <= i < |vs| ==> vs[i] == rows[i];
    forall h | h in vs ensures h in s.headers && InRange(h.id, b) {
      var i :| 0 <= i < |vs| && vs[i] == h;
      assert rows[i] in rows;
    }
  }

  /** A ranged read over valid tables that the reader did not stop hands
      every row in range, in id order, its complete group: BEGIN, one DATA
      call per stored chunk, and END, the DATA calls reassembling to the
      row's stored payload and adding up to its `size`. A reader that
      answers every call with true is never stopped. */
  lemma {:induction false} ReadDeliversPayloads(s: Store, b: Bounds, v: Visitor, tr: seq<Event>)
    requires Valid(s)
    ensures var p := ScanSpec(Select(s.headers, b), s.chunks, v, tr);
      !p.stopped ==> Delivered(p.trace[|tr|..], Select(s.headers, b), s.chunks)
    ensures (forall t :: v(t)) ==> !ScanSpec(Select(s.headers, b), s.chunks, v, tr).stopped
  {
    var rows := Select(s.headers, b);
    SelectMembers(s.headers, b);
    assert forall i :: 0 <= i < |rows| ==> rows[i] in rows;
    ScanDelivers(s.headers, s.chunks, s.nextId, s.nextChunkId, rows, v, tr);
    if forall t :: v(t) {
      AlwaysTrueNeverStops(rows, s.chunks, v, tr);
    }
  }

  /** A Write into empty tables: its header is the only row and its chunks
      the only chunks, numbered from the counters' current values. */
  lemma {:induction false} CommittedOnEmpty(d: Store, h: StreamHeader, source: seq<byte>)
    requires d.headers == [] && d.chunks == []
    ensures Committed(d, h, source).headers == [h.(id := d.nextId, size := |source|)]
    ensures Committed(d, h, source).chunks == NewChunks(d.nextChunkId, d.nextId, Pieces(source))
  {
    assert [] + [h.(id := d.nextId, size := |source|)] == [h.(id := d.nextId, size := |source|)];
    assert [] + NewChunks(d.nextChunkId, d.nextId, Pieces(source)) == NewChunks(d.nextChunkId, d.nextId, Pieces(source));
  }

  /** Without the counter reset, the next Write after DeleteAll continues the
      old numbering: its header is the only row, with the id the next write
      would have had anyway. */
  lemma {:induction false} WriteAfterDeleteAll(s: Store, h: StreamHeader, source: seq<byte>)
    requires Valid(s)
    ensures var r := Committed(Deleted(s, Unbounded, false), h, source);
      && r.headers == [h.(id := s.nextId, size := |source|)]
      && r.chunks == NewChunks(s.nextChunkId, s.nextId, Pieces(source))
  {
    DeleteAllEmpties(s, Unbounded);
    CommittedOnEmpty(Deleted(s, Unbounded, false), h, source);
  }

  /** With the counter reset on an unbounded delete, numbering starts over:
      the next Write gets stream id 1 and chunk ids from 1. */
  lemma {:induction false} WriteAfterReset(s: Store, b: Bounds, h: StreamHeader, source: seq<byte>)
    requires Valid(s)
    requires b.first == 0 && b.last == 0
    ensures var r := Committed(Deleted(s, b, true), h, source);
      && r.headers == [h.(id := 1, size := |source|)]
      && r.chunks == NewChunks(1, 1, Pieces(source))
  {
    DeleteAllEmpties(s, b);
    CommittedOnEmpty(Deleted(s, b, true), h, source);
  }

  /** `LookupById` finds a stream just written, and no longer finds it once
      a delete whose range covers its id has run. */
  lemma {:induction false} LookupAfterWriteAndDelete(s: Store, h: StreamHeader, source: seq<byte>, b: Bounds, resetId: bool)
    requires Valid(s)
    ensures s.nextId in Ids(Committed(s, h, source).headers)
    ensures InRange(s.nextId, b) <==> s.nextId !in Ids(Deleted(Committed(s, h, source), b, resetId).headers)
  {
    var r := Committed(s, h, source);
    var nh := h.(id := s.nextId, size := |source|);
    assert nh in r.headers;
    KeepMembers(r.headers, b);
    if !InRange(s.nextId, b) {
      assert nh in Keep(r.headers, b);
    } else {
      forall g | g in Keep(r.headers, b) ensures g.id != s.nextId {
        assert g in r.headers && !InRange(g.id, b);
      }
    }
  }
}

=== FILE: range.dfy ===
/** The range filter shared by `Read` and `Delete`: a bound of 0 means
    "no bound on that side"; otherwise the inclusive flags choose `>=`/`>`
    and `<=`/`<`. Also the ordered selection of header rows a query with
    that filter returns, and its pagination. */
module Range {
  import opened Stream

  /** Range arguments of `Read`/`Delete`: `first`, `inclusive_first`,
      `last`, `inclusive_last`. */
  datatype Bounds = Bounds(first: nat, inclusiveFirst: bool, last: nat, inclusiveLast: bool)

  /** Bounds that select every row. */
  const Unbounded := Bounds(0, true, 0, true)

  /** Rows per query in a paginated read (`STREAMS_PER_QUERY`). */
  const BatchLimit: nat := 100

  /** The lower side of the WHERE clause: `>=` or `>` against `first`,
      dropped when `first` is 0. The flag decides only the bound itself. */
  predicate AboveFirst(v: nat, b: Bounds): (r: bool)
    ensures v > b.first ==> r
    ensures v < b.first ==> !r
    ensures v == b.first ==> (r <==> b.first == 0 || b.inclusiveFirst)
  {
    b.first == 0 || (if b.inclusiveFirst then v >= b.first else v > b.first)
  }

  /** The upper side: `<=` or `<` against `last`, dropped when `last` is 0. */
  predicate BelowLast(v: nat, b: Bounds): (r: bool)
    ensures b.last == 0 || v < b.last ==> r
    ensures b.last != 0 && v > b.last ==> !r
    ensures b.last != 0 && v == b.last ==> (r <==> b.inclusiveLast)
  {
    b.last == 0 || (if b.inclusiveLast then v <= b.last else v < b.last)
  }

  /** The WHERE clause on the range column: every id strictly between set
      bounds is in, no id outside the closed interval is. */
  predicate InRange(v: nat, b: Bounds): (r: bool)
    ensures r ==> (b.first == 0 || b.first <= v) && (b.last == 0 || v <= b.last)
    ensures v > b.first && (b.last == 0 || v < b.last) ==> r
  {
    AboveFirst(v, b) && BelowLast(v, b)
  }

  /** The range is an interval: an id between two ids in range is in range. */
  lemma RangeConvex(lo: nat, v: nat, hi: nat, b: Bounds)
    requires InRange(lo, b) && InRange(hi, b) && lo <= v <= hi
    ensures InRange(v, b)
  {
  }

  /** A zero bound disables its side whatever its inclusive flag says. */
  lemma ZeroBoundIgnoresFlag(v: nat, b: Bounds)
    ensures b.first == 0 ==> (InRange(v, b) <==> InRange(v, b.(inclusiveFirst := !b.inclusiveFirst)))
    ensures b.last == 0 ==> (InRange(v, b) <==> InRange(v, b.(inclusiveLast := !b.inclusiveLast)))
    ensures b.first == 0 && b.last == 0 ==> InRange(v, b)
  {
  }

  /** With `first == last > 0`: inclusive on both sides selects exactly that
      value; exclusive on either side selects nothing. */
  lemma PointRange(v: nat, x: nat, incFirst: bool, incLast: bool)
    requires x > 0
    ensures incFirst && incLast ==> (InRange(v, Bounds(x, incFirst, x, incLast)) <==> v == x)
    ensures !(incFirst && incLast) ==> !InRange(v, Bounds(x, incFirst, x, incLast))
  {
  }

  /** Header rows in strictly ascending id order, as the auto-increment
      primary key stores and `ORDER BY id ASC` returns them. */
  ghost predicate Ascending(hs: seq<StreamHeader>)
  {
    forall i, j :: 0 <= i < j < |hs| ==> hs[i].id < hs[j].id
  }

  /** Rows matching the range, in table order. */
  function Select(hs: seq<StreamHeader>, b: Bounds): (r: seq<StreamHeader>)
    ensures |r| <= |hs|
  {
    if hs == [] then []
    else if InRange(hs[0].id, b) then [hs[0]] + Select(hs[1..], b)
    else Select(hs[1..], b)
  }

  /** Rows that survive a delete with the given range, in table order. */
  function Keep(hs: seq<StreamHeader>, b: Bounds): (r: seq<StreamHeader>)
    ensures |r| <= |hs|
  {
    if hs == [] then []
    else if InRange(hs[0].id, b) then Keep(hs[1..], b)
    else [hs[0]] + Keep(hs[1..], b)
  }

  /** A range splits the rows: each row is either selected by a read or
      kept by a delete with that range, never both. */
  lemma {:induction false} SelectKeepPartition(hs: seq<StreamHeader>, b: Bounds)
    ensures |Select(hs, b)| + |Keep(hs, b)| == |hs|
    ensures multiset(Select(hs, b)) + multiset(Keep(hs, b)) == multiset(hs)
  {
    if hs != [] {
      SelectKeepPartition(hs[1..], b);
      assert hs == [hs[0]] + hs[1..];
    }
  }

  /** The selected rows are exactly the rows in range. */
  lemma {:induction false} SelectMembers(hs: seq<StreamHeader>, b: Bounds)
    ensures forall h :: h in Select(hs, b) <==> h in hs && InRange(h.id, b)
  {
    if hs != [] {
      SelectMembers(hs[1..], b);
      assert hs == [hs[0]] + hs[1..];
    }
  }

  /** The kept rows are exactly the rows out of range. */
  lemma {:induction false} KeepMembers(hs: seq<StreamHeader>, b: Bounds)
    ensures forall h :: h in Keep(hs, b) <==> h in hs && !InRange(h.id, b)
  {
    if hs != [] {
      KeepMembers(hs[1..], b);
      assert hs == [hs[0]] + hs[1..];
    }
  }

  /** A row prepended to an ascending sequence of larger rows keeps it ascending. */
  lemma ConsAscending(h: StreamHeader, r: seq<StreamHeader>)
    requires Ascending(r)
    requires forall g :: g in r ==> h.id < g.id
    ensures Ascending([h] + r)
  {
    var s := [h] + r;
    forall i, j | 0 <= i < j < |s| ensures s[i].id < s[j].id {
      assert s[j] == r[j - 1];
      if i > 0 {
        assert s[i] == r[i - 1];
      }
    }
  }

  /** Selecting from rows in table order returns them in table order. */
  lemma {:induction false} SelectAscending(hs: seq<StreamHeader>, b: Bounds)
    requires Ascending(hs)
    ensures Ascending(Select(hs, b))
  {
    if hs != [] {
      SelectAscending(hs[1..], b);
      if InRange(hs[0].id, b) {
        SelectMembers(hs[1..], b);
        forall g | g in Select(hs[1..], b) ensures hs[0].id < g.id {
          var j :| 0 <= j < |hs[1..]| && hs[1..][j] == g;
          assert g == hs[j + 1];
        }
        ConsAscending(hs[0], Select(hs[1..], b));
      }
    }
  }

  /** A delete leaves the surviving rows in table order. */
  lemma {:induction false} KeepAscending(hs: seq<StreamHeader>, b: Bounds)
    requires Ascending(hs)
    ensures Ascending(Keep(hs, b))
  {
    if hs != [] {
      KeepAscending(hs[1..], b);
      if !InRange(hs[0].id, b) {
        KeepMembers(hs[1..], b);
        forall g | g in Keep(hs[1..], b) ensures hs[0].id < g.id {
          var j :| 0 <= j < |hs[1..]| && hs[1..][j] == g;
          assert g == hs[j + 1];
        }
        ConsAscending(hs[0], Keep(hs[1..], b));
      }
    }
  }

  /** One query of a paginated read: the first `BatchLimit` matching rows in
      ascending order. */
  function Batch(hs: seq<StreamHeader>, b: Bounds): (r: seq<StreamHeader>)
    ensures |r| <= BatchLimit
    ensures r <= Select(hs, b)
    ensures |r| < BatchLimit ==> r == Select(hs, b)
  {
    var s := Select(hs, b);
    if |s| <= BatchLimit then s else s[..BatchLimit]
  }

  /** The bounds of the next page: the last row's value becomes an exclusive
      lower bound; the upper bound is kept. */
  function Advance(b: Bounds, v: nat): (r: Bounds)
    ensures v > 0 ==> forall w: nat :: InRange(w, r) <==> w > v && BelowLast(w, b)
  {
    b.(first := v, inclusiveFirst := false)
  }

  /** Two ranges that agree on every row select the same rows. */
  lemma {:induction false} SelectCongruent(hs: seq<StreamHeader>, b1: Bounds, b2: Bounds)
    requires forall i :: 0 <= i < |hs| ==> (InRange(hs[i].id, b1) <==> InRange(hs[i].id, b2))
    ensures Select(hs, b1) == Select(hs, b2)
  {
    if hs != [] {
      SelectCongruent(hs[1..], b1, b2);
    }
  }

  /** In ascending rows the head is below every later row. */
  lemma HeadBelow(hs: seq<StreamHeader>, g: StreamHeader)
    requires Ascending(hs) && hs != []
    requires g in hs[1..]
    ensures hs[0].id < g.id
  {
    var j :| 0 <= j < |hs[1..]| && hs[1..][j] == g;
    assert g == hs[j + 1];
  }

  /** Advancing past the first selected row: the rest of the selection is
      what the advanced bounds select. */
  lemma SelectAfterFirst(hs: seq<StreamHeader>, b: Bounds)
    requires Ascending(hs) && hs != []
    requires hs[0].id > 0 && InRange(hs[0].id, b)
    ensures Select(hs[1..], b) == Select(hs, Advance(b, hs[0].id))
  {
    var p := hs[0].id;
    var a := Advance(b, p);
    var tail := hs[1..];
    forall i | 0 <= i < |tail|
      ensures InRange(tail[i].id, b) <==> InRange(tail[i].id, a)
    {
      assert tail[i] == hs[i + 1];
    }
    SelectCongruent(tail, b, a);
    assert !InRange(p, a);
  }

  /** Past the head row, the `k`-th selected row and the ones after it are
      found one place earlier in the selection from the tail when the head
      is selected, at the same place when it is not. */
  lemma SelectShift(hs: seq<StreamHeader>, b: Bounds, k: nat)
    requires hs != [] && 0 < k <= |Select(hs, b)|
    requires !(InRange(hs[0].id, b) && k == 1)
    ensures var k' := if InRange(hs[0].id, b) then k - 1 else k;
      && 0 < k' <= |Select(hs[1..], b)|
      && Select(hs, b)[k..] == Select(hs[1..], b)[k'..]
      && Select(hs, b)[k - 1] == Select(hs[1..], b)[k' - 1]
  {
    var s' := Select(hs[1..], b);
    if InRange(hs[0].id, b) {
      assert Select(hs, b) == [hs[0]] + s';
    } else {
      assert Select(hs, b) == s';
    }
  }

  /** Pagination loses and repeats nothing: after the first `k` matching
      rows, the rows still to come are exactly those the advanced bounds
      select. */
  lemma {:induction false} SelectAfter(hs: seq<StreamHeader>, b: Bounds, k: nat)
    requires Ascending(hs)
    requires forall i :: 0 <= i < |hs| ==> hs[i].id > 0
    requires 0 < k <= |Select(hs, b)|
    ensures Select(hs, b)[k..] == Select(hs, Advance(b, Select(hs, b)[k - 1].id))
  {
    var s := Select(hs, b);
    var tail := hs[1..];
    var s' := Select(tail, b);
    assert Ascending(tail);
    if InRange(hs[0].id, b) && k == 1 {
      SelectAfterFirst(hs, b);
    } else {
      var k' := if InRange(hs[0].id, b) then k - 1 else k;
      SelectShift(hs, b, k);
      SelectAfter(tail, b, k');
      var p := s[k - 1].id;
      SelectMembers(tail, b);
      HeadBelow(hs, s'[k' - 1]);
      assert !InRange(hs[0].id, Advance(b, p));
    }
  }

  /** After a full batch ending at row `last`, the query bounded below by
      `last`'s id selects exactly the rows not yet delivered, and fewer. */
  lemma NextBatch(hs: seq<StreamHeader>, b: Bounds, last: StreamHeader)
    requires Ascending(hs)
    requires forall i :: 0 <= i < |hs| ==> hs[i].id > 0
    requires |Batch(hs, b)| == BatchLimit && last == Batch(hs, b)[BatchLimit - 1]
    ensures Select(hs, b)[BatchLimit..] == Select(hs, Advance(b, last.id))
    ensures |Select(hs, Advance(b, last.id))| < |Select(hs, b)|
  {
    SelectAfter(hs, b, BatchLimit);
  }

  /** With both bounds 0 every row is selected and none survives a delete. */
  lemma {:induction false} UnboundedSelectsAll(hs: seq<StreamHeader>, b: Bounds)
    requires b.first == 0 && b.last == 0
    ensures Select(hs, b) == hs
    ensures Keep(hs, b) == []
  {
    if hs != [] {
      UnboundedSelectsAll(hs[1..], b);
      assert [hs[0]] + hs[1..] == hs;
    }
  }
}

=== FILE: scan.dfy ===
/** The reader-callback protocol of a ranged read, as functions of the
    tables, the reader and the calls delivered so far: what `ReadData`
    delivers for one stream, what the batch loop of `Read` delivers for one
    row, and what a whole read delivers. */
module Scan {
  import opened Stream
  import opened Chunking
  import opened Range
  import opened Tables

  /** The calls delivered so far and whether the reader asked to stop. */
  datatype Progress = Progress(trace: seq<Event>, stopped: bool)

  /** DATA calls, one per piece, for as long as the reader answers true.
      `stopped` reports that the last answer was false. */
  function DeliverPieces(h: StreamHeader, ps: seq<seq<byte>>, v: Visitor, tr: seq<Event>): (p: Progress)
    ensures tr <= p.trace
    decreases |ps|
  {
    if ps == [] then Progress(tr, false)
    else
      var tr' := tr + [DataEvent(h, ps[0])];
      if v(tr') then DeliverPieces(h, ps[1..], v, tr') else Progress(tr', true)
  }

  /** The pieces the nested chunk/BLOB loops of `ReadData` hand over: each
      chunk's BLOB cut into reads of at most `MaxCell` bytes. */
  function AllPieces(ds: seq<seq<byte>>): (r: seq<seq<byte>>)
    ensures Flatten(r) == Flatten(ds)
  {
    if ds == [] then []
    else
      FlattenPieces(ds[0]);
      FlattenAppend(Pieces(ds[0]), AllPieces(ds[1..]));
      Pieces(ds[0]) + AllPieces(ds[1..])
  }

  /** `ReadData`: BEGIN; if the reader answers true, DATA for the stream's
      pieces while it keeps answering true; END in every case. */
  function ReadDataSpec(h: StreamHeader, cs: seq<Chunk>, v: Visitor, tr: seq<Event>): (p: Progress)
    ensures tr <= p.trace
  {
    var tr1 := tr + [BeginEvent(h)];
    var d := if v(tr1) then DeliverPieces(h, AllPieces(ChunkData(cs, h.id)), v, tr1)
             else Progress(tr1, true);
    Progress(d.trace + [EndEvent(h)], d.stopped)
  }

  /** One row of `Read`'s batch loop: a size-0 stream gets BEGIN and END with
      the answers ignored; any other goes through `ReadData`. */
  function StreamSpec(h: StreamHeader, cs: seq<Chunk>, v: Visitor, tr: seq<Event>): (p: Progress)
    ensures tr <= p.trace
  {
    if h.size == 0 then Progress(tr + [BeginEvent(h), EndEvent(h)], false)
    else ReadDataSpec(h, cs, v, tr)
  }

  /** The rows in order, until one of them is stopped by the reader. */
  function ScanSpec(rows: seq<StreamHeader>, cs: seq<Chunk>, v: Visitor, tr: seq<Event>): (p: Progress)
    ensures tr <= p.trace
  {
    if rows == [] then Progress(tr, false)
    else
      var p := StreamSpec(rows[0], cs, v, tr);
      if p.stopped then p else ScanSpec(rows[1..], cs, v, p.trace)
  }

  /** The calls one stream receives: BEGIN first, END last, and in between
      DATA calls carrying, in order, a prefix of the pieces `ps`; every call
      is made under the READ lock. */
  ghost predicate StreamGroup(g: seq<Event>, h: StreamHeader, ps: seq<seq<byte>>)
  {
    && |g| >= 2
    && g[0] == BeginEvent(h)
    && g[|g| - 1] == EndEvent(h)
    && |g| - 2 <= |ps|
    && forall i :: 1 <= i < |g| - 1 ==> g[i] == DataEvent(h, ps[i - 1])
  }

  /** The byte pieces of the DATA calls in a trace. */
  function DataPieces(evs: seq<Event>): seq<seq<byte>>
  {
    if evs == [] then []
    else (if evs[0].state == Data then [evs[0].data] else []) + DataPieces(evs[1..])
  }

  /** The headers of the BEGIN calls in a trace. */
  function Begins(evs: seq<Event>): seq<StreamHeader>
  {
    if evs == [] then []
    else (if evs[0].state == Begin then [evs[0].hdr] else []) + Begins(evs[1..])
  }

  /** The headers of the END calls in a trace. */
  function Ends(evs: seq<Event>): seq<StreamHeader>
  {
    if evs == [] then []
    else (if evs[0].state == End then [evs[0].hdr] else []) + Ends(evs[1..])
  }

  lemma BeginsCons(e: Event, t: seq<Event>)
    ensures Begins([e] + t) == Begins([e]) + Begins(t)
  {
    assert ([e] + t)[0] == e && ([e] + t)[1..] == t && [e][1..] == [];
  }

  lemma EndsCons(e: Event, t: seq<Event>)
    ensures Ends([e] + t) == Ends([e]) + Ends(t)
  {
    assert ([e] + t)[0] == e && ([e] + t)[1..] == t && [e][1..] == [];
  }

  lemma DataPiecesCons(e: Event, t: seq<Event>)
    ensures DataPieces([e] + t) == DataPieces([e]) + DataPieces(t)
  {
    assert ([e] + t)[0] == e && ([e] + t)[1..] == t && [e][1..] == [];
  }

  lemma {:induction false} BeginsAppend(a: seq<Event>, b: seq<Event>)
    ensures Begins(a + b) == Begins(a) + Begins(b)
  {
    if a == [] {
      assert a + b == b;
    } else {
      assert a == [a[0]] + a[1..] && a + b == [a[0]] + (a[1..] + b);
      BeginsCons(a[0], a[1..]);
      BeginsCons(a[0], a[1..] + b);
      BeginsAppend(a[1..], b);
    }
  }

  lemma {:induction false} EndsAppend(a: seq<Event>, b: seq<Event>)
    ensures Ends(a + b) == Ends(a) + Ends(b)
  {
    if a == [] {
      assert a + b == b;
    } else {
      assert a == [a[0]] + a[1..] && a + b == [a[0]] + (a[1..] + b);
      EndsCons(a[0], a[1..]);
      EndsCons(a[0], a[1..] + b);
      EndsAppend(a[1..], b);
    }
  }

  lemma {:induction false} DataPiecesAppend(a: seq<Event>, b: seq<Event>)
    ensures DataPieces(a + b) == DataPieces(a) + DataPieces(b)
  {
    if a == [] {
      assert a + b == b;
    } else {
      assert a == [a[0]] + a[1..] && a + b == [a[0]] + (a[1..] + b);
      DataPiecesCons(a[0], a[1..]);
      DataPiecesCons(a[0], a[1..] + b);
      DataPiecesAppend(a[1..], b);
    }
  }

  lemma TraceFunctionsAppend(a: seq<Event>, b: seq<Event>)
    ensures Begins(a + b) == Begins(a) + Begins(b)
    ensures Ends(a + b) == Ends(a) + Ends(b)
    ensures DataPieces(a + b) == DataPieces(a) + DataPieces(b)
  {
    BeginsAppend(a, b);
    EndsAppend(a, b);
    DataPiecesAppend(a, b);
  }

  /** Only DATA calls: no BEGIN or END, and the pieces as listed. */
  lemma {:induction false} DataRun(g: seq<Event>, h: StreamHeader, ps: seq<seq<byte>>)
    requires |g| == |ps|
    requires forall i :: 0 <= i < |g| ==> g[i] == DataEvent(h, ps[i])
    ensures Begins(g) == [] && Ends(g) == [] && DataPieces(g) == ps
  {
    if g != [] {
      DataRun(g[1..], h, ps[1..]);
      assert ps == [ps[0]] + ps[1..];
    }
  }

  /** A stream's calls hold exactly one BEGIN and one END, for that stream,
      and the DATA calls carry the listed prefix of its pieces. */
  lemma GroupCounts(g: seq<Event>, h: StreamHeader, ps: seq<seq<byte>>)
    requires StreamGroup(g, h, ps)
    ensures Begins(g) == [h] && Ends(g) == [h]
    ensures DataPieces(g) == ps[..|g| - 2]
  {
    var mid := g[1..|g| - 1];
    assert g == [g[0]] + mid + [g[|g| - 1]];
    DataRun(mid, h, ps[..|g| - 2]);
    TraceFunctionsAppend([g[0]] + mid, [g[|g| - 1]]);
    TraceFunctionsAppend([g[0]], mid);
  }

  /** DATA delivery hands over a prefix of the pieces, all of them unless the
      reader stopped it. */
  lemma {:induction false} DeliverShape(h: StreamHeader, ps: seq<seq<byte>>, v: Visitor, tr: seq<Event>)
    ensures var p := DeliverPieces(h, ps, v, tr);
      && tr <= p.trace
      && |p.trace| - |tr| <= |ps|
      && (forall i :: |tr| <= i < |p.trace| ==> p.trace[i] == DataEvent(h, ps[i - |tr|]))
      && (!p.stopped ==> |p.trace| - |tr| == |ps|)
    decreases |ps|
  {
    if ps != [] {
      var tr' := tr + [DataEvent(h, ps[0])];
      if v(tr') {
        DeliverShape(h, ps[1..], v, tr');
        var p := DeliverPieces(h, ps[1..], v, tr');
        forall i | |tr| <= i < |p.trace| ensures p.trace[i] == DataEvent(h, ps[i - |tr|]) {
          if i > |tr| {
            assert ps[1..][i - |tr'|] == ps[i - |tr|];
          }
        }
      }
    }
  }

  /** The per-stream protocol: one BEGIN, then DATA for a prefix of the
      stream's pieces (all of them when the read was not stopped, none for a
      size-0 stream), then exactly one END, even after a stop. */
  lemma StreamShape(h: StreamHeader, cs: seq<Chunk>, v: Visitor, tr: seq<Event>)
    ensures var p := StreamSpec(h, cs, v, tr);
      var ps := AllPieces(ChunkData(cs, h.id));
      && tr <= p.trace
      && StreamGroup(p.trace[|tr|..], h, ps)
      && (!p.stopped ==> |p.trace| - |tr| == |ps| + 2 || h.size == 0)
      && (h.size == 0 ==> |p.trace| - |tr| == 2 && !p.stopped)
  {
    var p := StreamSpec(h, cs, v, tr);
    var ps := AllPieces(ChunkData(cs, h.id));
    if h.size != 0 {
      var tr1 := tr + [BeginEvent(h)];
      if v(tr1) {
        DeliverShape(h, ps, v, tr1);
        var d := DeliverPieces(h, ps, v, tr1);
        var g := p.trace[|tr|..];
        forall i | 1 <= i < |g| - 1 ensures g[i] == DataEvent(h, ps[i - 1]) {
          assert g[i] == d.trace[|tr| + i];
        }
      }
    }
  }

  /** What a trace gained past `a` is what it gained up to `b`, then past it. */
  lemma PrefixSlices(a: seq<Event>, b: seq<Event>, c: seq<Event>)
    requires a <= b <= c
    ensures c[|a|..] == b[|a|..] + c[|b|..]
  {
    assert b[|a|..] == c[|a|..|b|];
  }

  /** Each stream read, stopped or not, makes exactly one BEGIN and one END
      call, both for that stream. */
  lemma StreamCounts(h: StreamHeader, cs: seq<Chunk>, v: Visitor, tr: seq<Event>)
    ensures var q := StreamSpec(h, cs, v, tr);
      Begins(q.trace[|tr|..]) == [h] && Ends(q.trace[|tr|..]) == [h]
  {
    StreamShape(h, cs, v, tr);
    GroupCounts(StreamSpec(h, cs, v, tr).trace[|tr|..], h, AllPieces(ChunkData(cs, h.id)));
  }

  /** A whole read: the streams that got BEGIN are, in order, a prefix of
      the rows (all of them when not stopped), each got exactly one END, and
      at least one was visited when the reader stopped the read. */
  lemma {:induction false} ScanShape(rows: seq<StreamHeader>, cs: seq<Chunk>, v: Visitor, tr: seq<Event>)
    ensures var p := ScanSpec(rows, cs, v, tr);
      var g := p.trace[|tr|..];
      && tr <= p.trace
      && Begins(g) == Ends(g)
      && Begins(g) <= rows
      && (!p.stopped ==> Begins(g) == rows)
      && (p.stopped ==> |Begins(g)| >= 1)
  {
    var p := ScanSpec(rows, cs, v, tr);
    if rows == [] {
      assert p.trace[|tr|..] == [];
    } else {
      var h := rows[0];
      var q := StreamSpec(h, cs, v, tr);
      StreamCounts(h, cs, v, tr);
      var g1 := q.trace[|tr|..];
      if q.stopped {
        assert [h] <= rows;
      } else {
        ScanShape(rows[1..], cs, v, q.trace);
        PrefixSlices(tr, q.trace, p.trace);
        TraceFunctionsAppend(g1, p.trace[|q.trace|..]);
        assert rows == [h] + rows[1..];
      }
    }
  }

  /** A trace made of one `StreamGroup` per row of `rows`, back to back:
      each stream's calls are contiguous, none interleaves with another's. */
  ghost predicate GroupsOf(g: seq<Event>, rows: seq<StreamHeader>, cs: seq<Chunk>)
    decreases |rows|
  {
    if rows == [] then g == []
    else (exists n :: 2 <= n <= |g|
            && StreamGroup(g[..n], rows[0], AllPieces(ChunkData(cs, rows[0].id)))
            && GroupsOf(g[n..], rows[1..], cs))
  }

  /** One stream's group in front of the groups of the following rows. */
  lemma GroupsCons(a: seq<Event>, b: seq<Event>, rows: seq<StreamHeader>, k: nat, cs: seq<Chunk>)
    requires k < |rows|
    requires StreamGroup(a, rows[0], AllPieces(ChunkData(cs, rows[0].id)))
    requires GroupsOf(b, rows[1..][..k], cs)
    ensures GroupsOf(a + b, rows[..k + 1], cs)
  {
    var g := a + b;
    assert g[..|a|] == a && g[|a|..] == b;
    assert rows[..k + 1][0] == rows[0] && rows[..k + 1][1..] == rows[1..][..k];
  }

  /** A whole read is, call for call, the groups of the rows it began, in
      order: BEGIN, its DATA calls and END of one stream before the next
      stream's BEGIN. */
  lemma {:induction false} ScanGroups(rows: seq<StreamHeader>, cs: seq<Chunk>, v: Visitor, tr: seq<Event>)
    ensures var g := ScanSpec(rows, cs, v, tr).trace[|tr|..];
      |Begins(g)| <= |rows| && GroupsOf(g, rows[..|Begins(g)|], cs)
    decreases |rows|, 1
  {
    if rows == [] {
      assert ScanSpec(rows, cs, v, tr).trace[|tr|..] == [];
    } else if StreamSpec(rows[0], cs, v, tr).stopped {
      FirstGroupOnly(rows, cs, v, tr);
    } else {
      GroupsAfterFirst(rows, cs, v, tr);
    }
  }

  /** The reader stopped the first row's stream: the read is its group. */
  lemma FirstGroupOnly(rows: seq<StreamHeader>, cs: seq<Chunk>, v: Visitor, tr: seq<Event>)
    requires rows != [] && StreamSpec(rows[0], cs, v, tr).stopped
    ensures var g := ScanSpec(rows, cs, v, tr).trace[|tr|..];
      |Begins(g)| <= |rows| && GroupsOf(g, rows[..|Begins(g)|], cs)
  {
    var q := StreamSpec(rows[0], cs, v, tr);
    var a := q.trace[|tr|..];
    StreamShape(rows[0], cs, v, tr);
    StreamCounts(rows[0], cs, v, tr);
    assert ScanSpec(rows, cs, v, tr) == q;
    assert GroupsOf(a[|a|..], rows[1..][..0], cs);
    assert a + a[|a|..] == a;
    GroupsCons(a, a[|a|..], rows, 0, cs);
  }

  /** The first row's stream ran to its end: its group comes first, then
      the groups of the rows the rest of the read began. */
  lemma {:induction false} GroupsAfterFirst(rows: seq<StreamHeader>, cs: seq<Chunk>, v: Visitor, tr: seq<Event>)
    requires rows != [] && !StreamSpec(rows[0], cs, v, tr).stopped
    ensures var g := ScanSpec(rows, cs, v, tr).trace[|tr|..];
      |Begins(g)| <= |rows| && GroupsOf(g, rows[..|Begins(g)|], cs)
    decreases |rows|, 0
  {
    var q := StreamSpec(rows[0], cs, v, tr);
    var r := ScanSpec(rows[1..], cs, v, q.trace);
    assert ScanSpec(rows, cs, v, tr) == r;
    ScanGroups(rows[1..], cs, v, q.trace);
    StreamShape(rows[0], cs, v, tr);
    StreamCounts(rows[0], cs, v, tr);
    GroupsShift(rows, cs, tr, q.trace, r.trace);
  }

  /** The groups of the rest of the rows, after the first row's group, are
      the groups of all the rows begun. */
  lemma GroupsShift(rows: seq<StreamHeader>, cs: seq<Chunk>, tr: seq<Event>, t1: seq<Event>, t: seq<Event>)
    requires rows != [] && tr <= t1 <= t
    requires StreamGroup(t1[|tr|..], rows[0], AllPieces(ChunkData(cs, rows[0].id)))
    requires Begins(t1[|tr|..]) == [rows[0]]
    requires |Begins(t[|t1|..])| <= |rows[1..]| && GroupsOf(t[|t1|..], rows[1..][..|Begins(t[|t1|..])|], cs)
    ensures |Begins(t[|tr|..])| <= |rows| && GroupsOf(t[|tr|..], rows[..|Begins(t[|tr|..])|], cs)
  {
    var a, b := t1[|tr|..], t[|t1|..];
    PrefixSlices(tr, t1, t);
    TraceFunctionsAppend(a, b);
    GroupsCons(a, b, rows, |Begins(b)|, cs);
  }

  /** The reader's answer to call `j` of a trace: it sees every call up to
      and including that one. */
  function Answer(v: Visitor, evs: seq<Event>, j: nat): bool
    requires j < |evs|
  {
    v(evs[..j + 1])
  }

  /** DATA delivery stops exactly at a false answer: every call but a
      stopping last one was answered true, and a stop means the last call
      made was answered false. */
  lemma {:induction false} DeliverAnswers(h: StreamHeader, ps: seq<seq<byte>>, v: Visitor, tr: seq<Event>)
    ensures var p := DeliverPieces(h, ps, v, tr);
      && (p.stopped ==> |p.trace| > |tr| && !Answer(v, p.trace, |p.trace| - 1))
      && (forall j :: |tr| <= j < |p.trace| && !(p.stopped && j == |p.trace| - 1) ==> Answer(v, p.trace, j))
    decreases |ps|
  {
    if ps != [] {
      var tr' := tr + [DataEvent(h, ps[0])];
      if v(tr') {
        DeliverAnswers(h, ps[1..], v, tr');
        var p := DeliverPieces(h, ps[1..], v, tr');
        assert p.trace[..|tr| + 1] == tr';
      } else {
        assert tr'[..|tr'|] == tr';
      }
    }
  }

  /** For a stream with data, the read of it is stopped exactly when the
      reader answered false to its BEGIN or to one of its DATA calls, and
      that call is the last one before END. A size-0 stream is never
      stopped. */
  lemma StreamAnswers(h: StreamHeader, cs: seq<Chunk>, v: Visitor, tr: seq<Event>)
    ensures var p := StreamSpec(h, cs, v, tr);
      var n := |p.trace|;
      && (p.stopped ==> h.size != 0 && n >= |tr| + 2 && !Answer(v, p.trace, n - 2))
      && (h.size != 0 ==> (p.stopped <==> exists j :: |tr| <= j < n - 1 && !Answer(v, p.trace, j)))
  {
    var p := StreamSpec(h, cs, v, tr);
    var n := |p.trace|;
    if h.size != 0 {
      var tr1 := tr + [BeginEvent(h)];
      var ps := AllPieces(ChunkData(cs, h.id));
      if v(tr1) {
        DeliverAnswers(h, ps, v, tr1);
        var d := DeliverPieces(h, ps, v, tr1);
        assert p.trace == d.trace + [EndEvent(h)];
        assert p.trace[..n - 1] == d.trace;
        forall j | |tr| <= j < n - 1 && !(p.stopped && j == n - 2) ensures Answer(v, p.trace, j) {
          if j == |tr| {
            assert p.trace[..j + 1] == tr1;
          } else {
            assert p.trace[..j + 1] == d.trace[..j + 1];
            assert Answer(v, d.trace, j);
          }
        }
        if p.stopped {
          assert p.trace[..(n - 2) + 1] == d.trace;
          assert d.trace[..|d.trace|] == d.trace;
        }
      } else {
        assert p.trace[..n - 1] == tr1;
        assert p.trace[..|tr| + 1] == tr1;
      }
    }
  }

  /** A trace `t`, grown from `tr`, ends the way a read of `rows` the reader
      stopped ends: the streams that got BEGIN are the first `k + 1` rows,
      row `k` has a non-zero size (a size-0 stream ignores the answers), the
      last call is row `k`'s END, and the call before it got a false answer. */
  ghost predicate StoppedIn(rows: seq<StreamHeader>, v: Visitor, tr: seq<Event>, t: seq<Event>)
  {
    && |tr| + 2 <= |t|
    && var k := |Begins(t[|tr|..])| - 1;
       && 0 <= k < |rows|
       && Begins(t[|tr|..]) == rows[..k + 1]
       && rows[k].size != 0
       && t[|t| - 1] == EndEvent(rows[k])
       && !Answer(v, t, |t| - 2)
  }

  /** The read of stream `h`, started from some earlier trace, was stopped
      by the reader and produced trace `t`. */
  ghost predicate StoppedBy(h: StreamHeader, cs: seq<Chunk>, v: Visitor, t: seq<Event>)
  {
    exists t0 :: t0 <= t && StreamSpec(h, cs, v, t0) == Progress(t, true)
  }

  /** The row of `rows` a stopped read ended in. */
  function LastBegun(rows: seq<StreamHeader>, tr: seq<Event>, t: seq<Event>): StreamHeader
    requires |tr| <= |t| && 0 < |Begins(t[|tr|..])| <= |rows|
  {
    rows[|Begins(t[|tr|..])| - 1]
  }

  /** A read the reader stopped ends in the stream it was stopped in: no
      later row, in this page or a later one, is begun, and the read of that
      row is what the reader stopped. */
  lemma {:induction false} StopEndsScan(rows: seq<StreamHeader>, cs: seq<Chunk>, v: Visitor, tr: seq<Event>)
    ensures var p := ScanSpec(rows, cs, v, tr);
      p.stopped ==> StoppedIn(rows, v, tr, p.trace) && StoppedBy(LastBegun(rows, tr, p.trace), cs, v, p.trace)
    decreases |rows|, 1
  {
    if rows != [] {
      if StreamSpec(rows[0], cs, v, tr).stopped {
        StopInFirst(rows, cs, v, tr);
      } else {
        StopAfterFirst(rows, cs, v, tr);
      }
    }
  }

  /** The reader stopped the first row's stream: the read is that stream's
      calls alone. */
  lemma StopInFirst(rows: seq<StreamHeader>, cs: seq<Chunk>, v: Visitor, tr: seq<Event>)
    requires rows != [] && StreamSpec(rows[0], cs, v, tr).stopped
    ensures var t := ScanSpec(rows, cs, v, tr).trace;
      StoppedIn(rows, v, tr, t) && StoppedBy(LastBegun(rows, tr, t), cs, v, t)
  {
    var h := rows[0];
    var q := StreamSpec(h, cs, v, tr);
    StreamCounts(h, cs, v, tr);
    StreamShape(h, cs, v, tr);
    StreamAnswers(h, cs, v, tr);
    var g := q.trace[|tr|..];
    assert g[|g| - 1] == q.trace[|q.trace| - 1];
    assert rows[..1] == [h];
    assert StreamSpec(h, cs, v, tr) == Progress(q.trace, true);
  }

  /** The first row's stream ran to its end: a stop happens in the rest of
      the rows. */
  lemma {:induction false} StopAfterFirst(rows: seq<StreamHeader>, cs: seq<Chunk>, v: Visitor, tr: seq<Event>)
    requires rows != [] && !StreamSpec(rows[0], cs, v, tr).stopped
    ensures var p := ScanSpec(rows, cs, v, tr);
      p.stopped ==> StoppedIn(rows, v, tr, p.trace) && StoppedBy(LastBegun(rows, tr, p.trace), cs, v, p.trace)
    decreases |rows|, 0
  {
    var q := StreamSpec(rows[0], cs, v, tr);
    var r := ScanSpec(rows[1..], cs, v, q.trace);
    assert ScanSpec(rows, cs, v, tr) == r;
    StopEndsScan(rows[1..], cs, v, q.trace);
    if r.stopped {
      StreamCounts(rows[0], cs, v, tr);
      StoppedShift(rows, v, tr, q.trace, r.trace);
    }
  }

  /** A stop within the rest of the rows, after the first row's stream got
      its BEGIN (and nothing else of note), is a stop within all the rows. */
  lemma StoppedShift(rows: seq<StreamHeader>, v: Visitor, tr: seq<Event>, t1: seq<Event>, t: seq<Event>)
    requires rows != [] && tr <= t1 <= t
    requires Begins(t1[|tr|..]) == [rows[0]]
    requires StoppedIn(rows[1..], v, t1, t)
    ensures StoppedIn(rows, v, tr, t)
    ensures LastBegun(rows, tr, t) == LastBegun(rows[1..], t1, t)
  {
    var g2 := t[|t1|..];
    var m := |Begins(g2)|;
    PrefixSlices(tr, t1, t);
    TraceFunctionsAppend(t1[|tr|..], g2);
    assert rows[m] == rows[1..][m - 1];
    assert [rows[0]] + rows[1..][..m] == rows[..m + 1];
  }

  /** The pieces of any chunks each hold between 1 and `MaxCell` bytes. */
  lemma {:induction false} AllPiecesBounded(ds: seq<seq<byte>>)
    ensures forall i :: 0 <= i < |AllPieces(ds)| ==> 0 < |AllPieces(ds)[i]| <= MaxCell
  {
    if ds != [] {
      PiecesBounded(ds[0]);
      AllPiecesBounded(ds[1..]);
    }
  }

  /** Every DATA call of a trace carries between 1 and `MaxCell` bytes: no
      more than the shared buffer holds. */
  ghost predicate PiecesFit(g: seq<Event>)
  {
    forall i :: 0 <= i < |DataPieces(g)| ==> 0 < |DataPieces(g)[i]| <= MaxCell
  }

  /** Two runs of calls whose DATA pieces fit make one whose pieces fit. */
  lemma PiecesFitAppend(a: seq<Event>, b: seq<Event>)
    requires PiecesFit(a) && PiecesFit(b)
    ensures PiecesFit(a + b)
  {
    TraceFunctionsAppend(a, b);
    var da, db := DataPieces(a), DataPieces(b);
    forall i | 0 <= i < |da + db| ensures 0 < |(da + db)[i]| <= MaxCell {
      if i >= |da| {
        assert (da + db)[i] == db[i - |da|];
      }
    }
  }

  /** Every DATA call of a stream read, stopped or not, fits the buffer. */
  lemma StreamPiecesBounded(h: StreamHeader, cs: seq<Chunk>, v: Visitor, tr: seq<Event>)
    ensures PiecesFit(StreamSpec(h, cs, v, tr).trace[|tr|..])
  {
    var ps := AllPieces(ChunkData(cs, h.id));
    var g := StreamSpec(h, cs, v, tr).trace[|tr|..];
    StreamShape(h, cs, v, tr);
    GroupCounts(g, h, ps);
    AllPiecesBounded(ChunkData(cs, h.id));
  }

  /** Over a whole read, stopped or not, every DATA call fits the buffer. */
  lemma {:induction false} ScanPiecesBounded(rows: seq<StreamHeader>, cs: seq<Chunk>, v: Visitor, tr: seq<Event>)
    ensures PiecesFit(ScanSpec(rows, cs, v, tr).trace[|tr|..])
  {
    var p := ScanSpec(rows, cs, v, tr);
    if rows == [] {
      assert p.trace[|tr|..] == [];
    } else {
      var q := StreamSpec(rows[0], cs, v, tr);
      StreamPiecesBounded(rows[0], cs, v, tr);
      if !q.stopped {
        var r := ScanSpec(rows[1..], cs, v, q.trace);
        assert p == r;
        ScanPiecesBounded(rows[1..], cs, v, q.trace);
        PrefixSlices(tr, q.trace, r.trace);
        PiecesFitAppend(q.trace[|tr|..], r.trace[|q.trace|..]);
      }
    }
  }

  /** Chunks that each fit the buffer are delivered one piece per chunk. */
  lemma {:induction false} AllPiecesOfCells(ds: seq<seq<byte>>)
    requires forall i :: 0 <= i < |ds| ==> 0 < |ds[i]| <= MaxCell
    ensures AllPieces(ds) == ds
  {
    if ds != [] {
      PiecesOfCell(ds[0]);
      AllPiecesOfCells(ds[1..]);
      assert ds == [ds[0]] + ds[1..];
    }
  }

  lemma {:induction false} ChunkDataCells(cs: seq<Chunk>, m: nat)
    requires forall i :: 0 <= i < |cs| ==> 0 < |cs[i].data| <= MaxCell
    ensures forall i :: 0 <= i < |ChunkData(cs, m)| ==> 0 < |ChunkData(cs, m)[i]| <= MaxCell
  {
    if cs != [] {
      ChunkDataCells(cs[1..], m);
    }
  }

  /** In valid tables, a stream the reader did not stop receives its whole
      payload in DATA calls of at most `MaxCell` bytes each, one per chunk,
      and the byte count equals the header's `size`: the demo reader's
      `[ERROR]` check (delivered bytes differ from `size`) never fires. */
  lemma CompleteStreamDeliversPayload(hs: seq<StreamHeader>, cs: seq<Chunk>, nextId: nat, nextChunkId: nat,
                                      k: nat, v: Visitor, tr: seq<Event>)
    requires StoreValid(hs, cs, nextId, nextChunkId)
    requires k < |hs|
    requires !StreamSpec(hs[k], cs, v, tr).stopped
    ensures var g := StreamSpec(hs[k], cs, v, tr).trace[|tr|..];
      && DataPieces(g) == ChunkData(cs, hs[k].id)
      && Flatten(DataPieces(g)) == Payload(cs, hs[k].id)
      && |Flatten(DataPieces(g))| == hs[k].size
      && (forall i :: 0 <= i < |DataPieces(g)| ==> 0 < |DataPieces(g)[i]| <= MaxCell)
  {
    var h := hs[k];
    var p := StreamSpec(h, cs, v, tr);
    var g := p.trace[|tr|..];
    var ds := ChunkData(cs, h.id);
    ChunkDataCells(cs, h.id);
    AllPiecesOfCells(ds);
    StreamShape(h, cs, v, tr);
    GroupCounts(g, h, ds);
    TotalLenFlatten(ds);
    if h.size == 0 {
      assert ds[..0] == ds;
    } else {
      assert ds[..|g| - 2] == ds;
    }
  }

  /** A trace that gives each of `rows`, in order and back to back, its
      complete group: BEGIN, one DATA call per stored chunk carrying that
      chunk's bytes, and END, so that the DATA calls reassemble to the
      stored payload and add up to the header's `size`. */
  ghost predicate Delivered(g: seq<Event>, rows: seq<StreamHeader>, cs: seq<Chunk>)
    decreases |rows|
  {
    if rows == [] then g == []
    else
      var n := |ChunkData(cs, rows[0].id)| + 2;
      && n <= |g|
      && StreamGroup(g[..n], rows[0], ChunkData(cs, rows[0].id))
      && Flatten(DataPieces(g[..n])) == Payload(cs, rows[0].id)
      && TotalLen(DataPieces(g[..n])) == rows[0].size
      && Delivered(g[n..], rows[1..], cs)
  }

  /** One row's complete group in front of the complete groups of the rest. */
  lemma DeliveredCons(a: seq<Event>, b: seq<Event>, rows: seq<StreamHeader>, cs: seq<Chunk>)
    requires rows != [] && |a| == |ChunkData(cs, rows[0].id)| + 2
    requires StreamGroup(a, rows[0], ChunkData(cs, rows[0].id))
    requires Flatten(DataPieces(a)) == Payload(cs, rows[0].id)
    requires TotalLen(DataPieces(a)) == rows[0].size
    requires Delivered(b, rows[1..], cs)
    ensures Delivered(a + b, rows, cs)
  {
    assert (a + b)[..|a|] == a && (a + b)[|a|..] == b;
  }

  /** In valid tables, a row of the table whose read the reader did not
      stop gets its complete group. */
  lemma RowDelivered(hs: seq<StreamHeader>, cs: seq<Chunk>, nextId: nat, nextChunkId: nat,
                     k: nat, v: Visitor, tr: seq<Event>)
    requires StoreValid(hs, cs, nextId, nextChunkId)
    requires k < |hs|
    requires !StreamSpec(hs[k], cs, v, tr).stopped
    ensures var a := StreamSpec(hs[k], cs, v, tr).trace[|tr|..];
      && |a| == |ChunkData(cs, hs[k].id)| + 2
      && StreamGroup(a, hs[k], ChunkData(cs, hs[k].id))
      && Flatten(DataPieces(a)) == Payload(cs, hs[k].id)
      && TotalLen(DataPieces(a)) == hs[k].size
  {
    var h := hs[k];
    var a := StreamSpec(h, cs, v, tr).trace[|tr|..];
    var ds := ChunkData(cs, h.id);
    CompleteStreamDeliversPayload(hs, cs, nextId, nextChunkId, k, v, tr);
    ChunkDataCells(cs, h.id);
    AllPiecesOfCells(ds);
    StreamShape(h, cs, v, tr);
    TotalLenFlatten(DataPieces(a));
  }

  /** In valid tables, a read of rows of the table that the reader did not
      stop gives every row its complete group: all of its stored bytes, in
      chunk order, adding up to its `size`. */
  lemma {:induction false} ScanDelivers(hs: seq<StreamHeader>, cs: seq<Chunk>, nextId: nat, nextChunkId: nat,
                                        rows: seq<StreamHeader>, v: Visitor, tr: seq<Event>)
    requires StoreValid(hs, cs, nextId, nextChunkId)
    requires forall i :: 0 <= i < |rows| ==> rows[i] in hs
    ensures var p := ScanSpec(rows, cs, v, tr);
      !p.stopped ==> Delivered(p.trace[|tr|..], rows, cs)
  {
    var p := ScanSpec(rows, cs, v, tr);
    if rows == [] {
      assert p.trace[|tr|..] == [];
    } else if !StreamSpec(rows[0], cs, v, tr).stopped {
      var q := StreamSpec(rows[0], cs, v, tr);
      var r := ScanSpec(rows[1..], cs, v, q.trace);
      assert p == r;
      assert rows[0] in hs;
      var k :| 0 <= k < |hs| && hs[k] == rows[0];
      RowDelivered(hs, cs, nextId, nextChunkId, k, v, tr);
      assert forall i :: 0 <= i < |rows[1..]| ==> rows[1..][i] == rows[i + 1];
      ScanDelivers(hs, cs, nextId, nextChunkId, rows[1..], v, q.trace);
      if !r.stopped {
        PrefixSlices(tr, q.trace, r.trace);
        DeliveredCons(q.trace[|tr|..], r.trace[|q.trace|..], rows, cs);
      }
    }
  }

  /** A reader that answers every call with true, as the demo reader does,
      never stops a read. */
  lemma {:induction false} AlwaysTrueNeverStops(rows: seq<StreamHeader>, cs: seq<Chunk>, v: Visitor, tr: seq<Event>)
    requires forall t :: v(t)
    ensures !ScanSpec(rows, cs, v, tr).stopped
  {
    if rows != [] {
      var q := StreamSpec(rows[0], cs, v, tr);
      StreamAnswers(rows[0], cs, v, tr);
      AlwaysTrueNeverStops(rows[1..], cs, v, q.trace);
    }
  }
}

=== FILE: schema.dfy ===
/** Schema checks made when the engine starts: is a name among those the
    backend lists (databases, or tables of the current database)? */
module Schema {

  /** The header table. */
  const StreamTable: string := "stream"

  /** The chunk table. */
  const StreamDataTable: string := "streamdata"

  /** Walks the listed names until one equals `name`, as the result-set
      loops over `TABLE_SCHEM` and `TABLE_NAME` do. */
  method SearchNames(names: seq<string>, name: string) returns (found: bool)
    ensures found <==> name in names
  {
    found := false;
    var i := 0;
    while i < |names|
      invariant 0 <= i <= |names|
      invariant name !in names[..i]
    {
      if names[i] == name {
        found := true;
        break;
      }
      assert names[..i + 1] == names[..i] + [names[i]];
      i := i + 1;
    }
    if !found {
      assert names[..i] == names;
    }
  }
}

=== FILE: stream.dfy ===
/** Shared vocabulary of the stream store: the stream header record, the
    reader callback states and the events a reader receives. */
module Stream {

  /** One byte of payload (`unsigned char`). */
  type byte = x: int | 0 <= x < 256

  /** The maximum length of a BLOB cell, which is also the size of the
      engine's shared buffer `mBuf`. */
  const MaxCell: nat := 65535

  /** A pointer argument that may be NULL. */
  datatype Option<T> = None | Some(value: T)

  /** A C string that may be NULL. */
  datatype Descr = Null | Text(chars: string)

  /** `StreamHeader`: identifier, description, type tag, caller-supplied
      timestamp and total payload size. */
  datatype StreamHeader = StreamHeader(id: nat, descr: Descr, typ: byte, timestamp: nat, size: nat)

  /** `DB_STREAM_READ_BEGIN`, `DB_STREAM_READ_DATA`, `DB_STREAM_READ_END`. */
  datatype ReadState = Begin | Data | End

  /** The table lock held by the engine's connection. */
  datatype LockMode = NoLock | ReadLock | WriteLock

  /** One call of `DBStreamReader::OnRead`: the header, the bytes handed
      over, the reading state, and the table lock held while it was made. */
  datatype Event = Event(hdr: StreamHeader, data: seq<byte>, state: ReadState, lock: LockMode)

  /** A reader answers each call with "keep reading"; a deterministic reader's
      answer is a function of every call it has received so far, the current
      one last. */
  type Visitor = seq<Event> -> bool

  function BeginEvent(h: StreamHeader): Event { Event(h, [], Begin, ReadLock) }
  function DataEvent(h: StreamHeader, d: seq<byte>): Event { Event(h, d, Data, ReadLock) }
  function EndEvent(h: StreamHeader): Event { Event(h, [], End, ReadLock) }
}

=== FILE: tables.dfy ===
/** The two tables of the store, `stream` (headers) and `streamdata`
    (chunks), with the invariants the engine keeps between calls, and the
    row-level effects of its writes and deletes. */
module Tables {
  import opened Stream
  import opened Chunking
  import opened Range

  /** A row of the chunk table: its own id, the owning header's id
      (`masterid`) and the BLOB bytes. */
  datatype Chunk = Chunk(id: nat, masterId: nat, data: seq<byte>)

  /** The BLOBs of one stream in chunk-id order, as
      `SELECT ... WHERE masterid = m ORDER BY id` returns them. */
  function ChunkData(cs: seq<Chunk>, m: nat): (r: seq<seq<byte>>)
    ensures |r| <= |cs|
  {
    if cs == [] then []
    else if cs[0].masterId == m then [cs[0].data] + ChunkData(cs[1..], m)
    else ChunkData(cs[1..], m)
  }

  /** The chunk query returns a BLOB exactly when some chunk row of stream
      `m` holds it. */
  lemma {:induction false} ChunkDataMembers(cs: seq<Chunk>, m: nat)
    ensures forall d :: d in ChunkData(cs, m) <==> exists c :: c in cs && c.masterId == m && c.data == d
  {
    if cs != [] {
      ChunkDataMembers(cs[1..], m);
      assert cs == [cs[0]] + cs[1..];
    }
  }

  /** The payload stored for stream `m`: its chunks concatenated. */
  function Payload(cs: seq<Chunk>, m: nat): seq<byte>
  {
    Flatten(ChunkData(cs, m))
  }

  /** The identifiers of a set of header rows. */
  function Ids(hs: seq<StreamHeader>): set<nat>
  {
    set h | h in hs :: h.id
  }

  ghost predicate ChunksAscending(cs: seq<Chunk>)
  {
    forall i, j :: 0 <= i < j < |cs| ==> cs[i].id < cs[j].id
  }

  /** What holds of the committed tables between calls:
      - header ids are positive, strictly ascending and below the next
        auto-increment value, and likewise for chunk ids;
      - every chunk holds between 1 and `MaxCell` bytes;
      - every chunk belongs to an existing header (the foreign key);
      - every header's `size` is the total length of its chunks;
      - every header has a description (`descr` is `NOT NULL`). */
  ghost predicate StoreValid(hs: seq<StreamHeader>, cs: seq<Chunk>, nextId: nat, nextChunkId: nat)
  {
    && nextId >= 1 && nextChunkId >= 1
    && Ascending(hs)
    && (forall i :: 0 <= i < |hs| ==> 0 < hs[i].id < nextId)
    && ChunksAscending(cs)
    && (forall i :: 0 <= i < |cs| ==> 0 < cs[i].id < nextChunkId)
    && (forall i :: 0 <= i < |cs| ==> 0 < |cs[i].data| <= MaxCell)
    && (forall i :: 0 <= i < |cs| ==> cs[i].masterId in Ids(hs))
    && (forall i :: 0 <= i < |hs| ==> hs[i].size == TotalLen(ChunkData(cs, hs[i].id)))
    && (forall i :: 0 <= i < |hs| ==> hs[i].descr.Text?)
  }

  /** The chunk rows one Write inserts for stream `m`, one per piece, with
      consecutive ids from `start`. */
  function NewChunks(start: nat, m: nat, ps: seq<seq<byte>>): (r: seq<Chunk>)
    ensures |r| == |ps|
  {
    seq(|ps|, i requires 0 <= i < |ps| => Chunk(start + i, m, ps[i]))
  }

  /** The `ON DELETE CASCADE` effect: chunk rows whose owner was deleted go. */
  function Cascade(cs: seq<Chunk>, removed: set<nat>): (r: seq<Chunk>)
    ensures |r| <= |cs|
  {
    if cs == [] then []
    else if cs[0].masterId in removed then Cascade(cs[1..], removed)
    else [cs[0]] + Cascade(cs[1..], removed)
  }

  /** The cascade keeps exactly the chunks of headers not removed. */
  lemma {:induction false} CascadeMembers(cs: seq<Chunk>, removed: set<nat>)
    ensures forall c :: c in Cascade(cs, removed) <==> c in cs && c.masterId !in removed
  {
    if cs != [] {
      CascadeMembers(cs[1..], removed);
      assert cs == [cs[0]] + cs[1..];
    }
  }

  lemma {:induction false} ChunkDataAppend(a: seq<Chunk>, b: seq<Chunk>, m: nat)
    ensures ChunkData(a + b, m) == ChunkData(a, m) + ChunkData(b, m)
  {
    if a == [] {
      assert a + b == b;
    } else {
      assert (a + b)[1..] == a[1..] + b;
      ChunkDataAppend(a[1..], b, m);
    }
  }

  /** A stream no chunk refers to has no data. */
  lemma {:induction false} ChunkDataAbsent(cs: seq<Chunk>, m: nat)
    requires forall i :: 0 <= i < |cs| ==> cs[i].masterId != m
    ensures ChunkData(cs, m) == []
  {
    if cs != [] {
      assert forall i :: 0 <= i < |cs[1..]| ==> cs[1..][i] == cs[i + 1];
      ChunkDataAbsent(cs[1..], m);
    }
  }

  /** The chunks a Write inserts hand back exactly its pieces. */
  lemma {:induction false} ChunkDataNew(start: nat, m: nat, ps: seq<seq<byte>>)
    ensures ChunkData(NewChunks(start, m, ps), m) == ps
    decreases |ps|
  {
    if ps != [] {
      assert NewChunks(start, m, ps)[1..] == NewChunks(start + 1, m, ps[1..]);
      ChunkDataNew(start + 1, m, ps[1..]);
      assert ps == [ps[0]] + ps[1..];
    }
  }

  lemma NewChunksSnoc(start: nat, m: nat, ps: seq<seq<byte>>, p: seq<byte>)
    ensures NewChunks(start, m, ps + [p]) == NewChunks(start, m, ps) + [Chunk(start + |ps|, m, p)]
  {
  }

  /** The cascade leaves the chunks of a surviving stream as they were. */
  lemma {:induction false} ChunkDataCascade(cs: seq<Chunk>, removed: set<nat>, m: nat)
    requires m !in removed
    ensures ChunkData(Cascade(cs, removed), m) == ChunkData(cs, m)
  {
    if cs != [] {
      ChunkDataCascade(cs[1..], removed, m);
    }
  }

  /** In ascending chunks, the first chunk's id is below every later one. */
  lemma FirstChunkBelow(cs: seq<Chunk>)
    requires ChunksAscending(cs) && cs != []
    ensures forall c :: c in cs[1..] ==> cs[0].id < c.id
  {
    forall c | c in cs[1..] ensures cs[0].id < c.id {
      var j :| 0 <= j < |cs[1..]| && cs[1..][j] == c;
      assert cs[j + 1] == c;
    }
  }

  /** A chunk below all of an ascending sequence keeps it ascending in front. */
  lemma ConsChunksAscending(c: Chunk, r: seq<Chunk>)
    requires ChunksAscending(r)
    requires forall g :: g in r ==> c.id < g.id
    ensures ChunksAscending([c] + r)
  {
    var s := [c] + r;
    forall i, j | 0 <= i < j < |s| ensures s[i].id < s[j].id {
      assert s[j] == r[j - 1];
      if i > 0 {
        assert s[i] == r[i - 1];
      } else {
        assert r[j - 1] in r;
      }
    }
  }

  /** The cascade keeps the chunk table in id order. */
  lemma {:induction false} CascadeAscending(cs: seq<Chunk>, removed: set<nat>)
    requires ChunksAscending(cs)
    ensures ChunksAscending(Cascade(cs, removed))
  {
    if cs != [] {
      var tail := cs[1..];
      assert ChunksAscending(tail);
      CascadeAscending(tail, removed);
      if cs[0].masterId !in removed {
        FirstChunkBelow(cs);
        CascadeMembers(tail, removed);
        ConsChunksAscending(cs[0], Cascade(tail, removed));
      }
    }
  }

  /** Appending a header adds exactly its id to the ids. */
  lemma AppendIds(hs: seq<StreamHeader>, h: StreamHeader)
    ensures Ids(hs + [h]) == Ids(hs) + {h.id}
  {
    var hs' := hs + [h];
    forall x | x in Ids(hs') ensures x in Ids(hs) + {h.id} {
      var g :| g in hs' && g.id == x;
      if g != h { assert g in hs; }
    }
    forall x | x in Ids(hs) ensures x in Ids(hs') {
      var g :| g in hs && g.id == x;
      assert g in hs';
    }
  }

  /** After a Write every header's size is still the total length of its
      chunks: the old ones gain no chunk, the new one gets all the pieces. */
  lemma WriteSizes(hs: seq<StreamHeader>, cs: seq<Chunk>, nextId: nat, nextChunkId: nat,
                   h: StreamHeader, ps: seq<seq<byte>>)
    requires StoreValid(hs, cs, nextId, nextChunkId)
    ensures var hs' := hs + [h.(id := nextId, size := TotalLen(ps))];
      var cs' := cs + NewChunks(nextChunkId, nextId, ps);
      forall i :: 0 <= i < |hs'| ==> hs'[i].size == TotalLen(ChunkData(cs', hs'[i].id))
  {
    var h' := h.(id := nextId, size := TotalLen(ps));
    var hs' := hs + [h'];
    forall i | 0 <= i < |cs| ensures cs[i].masterId != nextId {
      assert cs[i].masterId in Ids(hs);
      var g :| g in hs && g.id == cs[i].masterId;
      var j :| 0 <= j < |hs| && hs[j] == g;
    }
    ChunkDataAbsent(cs, nextId);
    forall i | 0 <= i < |hs'|
      ensures hs'[i].size == TotalLen(ChunkData(cs + NewChunks(nextChunkId, nextId, ps), hs'[i].id))
    {
      if i < |hs| {
        assert hs'[i] == hs[i] && hs[i].id < nextId;
        ChunkDataOther(cs, nextChunkId, nextId, ps, hs[i].id);
      } else {
        assert hs'[i] == h';
        ChunkDataOwn(cs, nextChunkId, nextId, ps);
      }
    }
  }

  /** New chunks of stream `m` leave every other stream's chunk data alone. */
  lemma ChunkDataOther(cs: seq<Chunk>, start: nat, m: nat, ps: seq<seq<byte>>, other: nat)
    requires other != m
    ensures ChunkData(cs + NewChunks(start, m, ps), other) == ChunkData(cs, other)
  {
    var added := NewChunks(start, m, ps);
    ChunkDataAppend(cs, added, other);
    assert forall k :: 0 <= k < |added| ==> added[k].masterId == m;
    ChunkDataAbsent(added, other);
    assert ChunkData(cs + added, other) == ChunkData(cs, other) + [];
  }

  /** New chunks of a stream that had none are exactly its chunk data. */
  lemma ChunkDataOwn(cs: seq<Chunk>, start: nat, m: nat, ps: seq<seq<byte>>)
    requires ChunkData(cs, m) == []
    ensures ChunkData(cs + NewChunks(start, m, ps), m) == ps
  {
    ChunkDataAppend(cs, NewChunks(start, m, ps), m);
    ChunkDataNew(start, m, ps);
    assert [] + ps == ps;
  }

  /** A Write appends ids above all existing ones, so both tables stay in
      ascending id order. */
  lemma WriteAscending(hs: seq<StreamHeader>, cs: seq<Chunk>, nextId: nat, nextChunkId: nat,
                       h: StreamHeader, ps: seq<seq<byte>>)
    requires StoreValid(hs, cs, nextId, nextChunkId)
    ensures Ascending(hs + [h.(id := nextId, size := TotalLen(ps))])
    ensures ChunksAscending(cs + NewChunks(nextChunkId, nextId, ps))
  {
    var hs' := hs + [h.(id := nextId, size := TotalLen(ps))];
    var added := NewChunks(nextChunkId, nextId, ps);
    var cs' := cs + added;
    assert ChunksAscending(cs') by {
      forall i, j | 0 <= i < j < |cs'| ensures cs'[i].id < cs'[j].id {
        if j >= |cs| {
          assert cs'[j] == added[j - |cs|];
          if i < |cs| { assert cs'[i] == cs[i]; } else { assert cs'[i] == added[i - |cs|]; }
        } else {
          assert cs'[i] == cs[i] && cs'[j] == cs[j];
        }
      }
    }
    assert Ascending(hs') by {
      forall i, j | 0 <= i < j < |hs'| ensures hs'[i].id < hs'[j].id {
        assert hs'[i] == hs[i];
      }
    }
  }

  /** Committing a Write keeps the tables valid: a header with the next id
      and `size` equal to the pieces' total, and one chunk per piece. */
  lemma WriteKeepsValid(hs: seq<StreamHeader>, cs: seq<Chunk>, nextId: nat, nextChunkId: nat,
                        h: StreamHeader, ps: seq<seq<byte>>)
    requires StoreValid(hs, cs, nextId, nextChunkId)
    requires forall i :: 0 <= i < |ps| ==> 0 < |ps[i]| <= MaxCell
    requires h.descr.Text?
    ensures StoreValid(hs + [h.(id := nextId, size := TotalLen(ps))],
                       cs + NewChunks(nextChunkId, nextId, ps),
                       nextId + 1, nextChunkId + |ps|)
  {
    var h' := h.(id := nextId, size := TotalLen(ps));
    var hs' := hs + [h'];
    var added := NewChunks(nextChunkId, nextId, ps);
    var cs' := cs + added;
    AppendIds(hs, h');
    forall i | 0 <= i < |cs'| ensures cs'[i].masterId in Ids(hs') {
      if i < |cs| { assert cs'[i] == cs[i]; } else { assert cs'[i] == added[i - |cs|]; }
    }
    forall i | 0 <= i < |hs'| ensures hs'[i].descr.Text? {
      if i < |hs| { assert hs'[i] == hs[i]; }
    }
    WriteSizes(hs, cs, nextId, nextChunkId, h, ps);
    WriteAscending(hs, cs, nextId, nextChunkId, h, ps);
  }

  /** After a range delete every surviving header keeps its id and its
      size still matches its chunks, which the cascade leaves alone. */
  lemma KeptHeadersValid(hs: seq<StreamHeader>, cs: seq<Chunk>, nextId: nat, nextChunkId: nat, b: Bounds)
    requires StoreValid(hs, cs, nextId, nextChunkId)
    ensures forall i :: 0 <= i < |Keep(hs, b)| ==>
      && 0 < Keep(hs, b)[i].id < nextId && Keep(hs, b)[i].descr.Text?
      && Keep(hs, b)[i].size == TotalLen(ChunkData(Cascade(cs, Ids(Select(hs, b))), Keep(hs, b)[i].id))
  {
    var hs' := Keep(hs, b);
    var removed := Ids(Select(hs, b));
    var cs' := Cascade(cs, removed);
    KeepMembers(hs, b);
    forall i | 0 <= i < |hs'| ensures 0 < hs'[i].id < nextId && hs'[i].descr.Text? && hs'[i].size == TotalLen(ChunkData(cs', hs'[i].id)) {
      assert hs'[i] in hs;
      var j :| 0 <= j < |hs| && hs[j] == hs'[i];
      UniqueIds(hs, b, hs'[i]);
      ChunkDataCascade(cs, removed, hs'[i].id);
    }
  }

  /** After a range delete every surviving chunk is an old chunk whose
      header survived. */
  lemma KeptChunksValid(hs: seq<StreamHeader>, cs: seq<Chunk>, nextId: nat, nextChunkId: nat, b: Bounds)
    requires StoreValid(hs, cs, nextId, nextChunkId)
    ensures forall i :: 0 <= i < |Cascade(cs, Ids(Select(hs, b)))| ==>
      var c := Cascade(cs, Ids(Select(hs, b)))[i];
      c in cs && 0 < c.id < nextChunkId && 0 < |c.data| <= MaxCell && c.masterId in Ids(Keep(hs, b))
  {
    var hs' := Keep(hs, b);
    var removed := Ids(Select(hs, b));
    var cs' := Cascade(cs, removed);
    CascadeMembers(cs, removed);
    KeepMembers(hs, b);
    SelectMembers(hs, b);
    forall i | 0 <= i < |cs'|
      ensures && cs'[i] in cs && 0 < cs'[i].id < nextChunkId && 0 < |cs'[i].data| <= MaxCell
              && cs'[i].masterId in Ids(hs')
    {
      var c := cs'[i];
      assert c in cs';
      var j :| 0 <= j < |cs| && cs[j] == c;
      assert c.masterId in Ids(hs);
      var g :| g in hs && g.id == c.masterId;
      assert g !in Select(hs, b);
      assert g in hs';
    }
  }

  /** A range delete keeps the tables valid: the rows out of range survive,
      and the chunks of the deleted rows go with them. */
  lemma DeleteKeepsValid(hs: seq<StreamHeader>, cs: seq<Chunk>, nextId: nat, nextChunkId: nat, b: Bounds)
    requires StoreValid(hs, cs, nextId, nextChunkId)
    ensures StoreValid(Keep(hs, b), Cascade(cs, Ids(Select(hs, b))), nextId, nextChunkId)
  {
    KeepAscending(hs, b);
    CascadeAscending(cs, Ids(Select(hs, b)));
    KeptHeadersValid(hs, cs, nextId, nextChunkId, b);
    KeptChunksValid(hs, cs, nextId, nextChunkId, b);
  }

  /** The committed contents of both tables and their auto-increment counters. */
  datatype Store = Store(headers: seq<StreamHeader>, chunks: seq<Chunk>, nextId: nat, nextChunkId: nat)

  ghost predicate Valid(s: Store)
  {
    StoreValid(s.headers, s.chunks, s.nextId, s.nextChunkId)
  }

  /** The tables after a committed Write of `source` under header `h`: the
      header takes the next id and the byte count as `size`, and one chunk
      per non-empty read follows with consecutive chunk ids. */
  ghost function Committed(s: Store, h: StreamHeader, source: seq<byte>): (r: Store)
    ensures s.headers <= r.headers && |r.headers| == |s.headers| + 1
    ensures s.chunks <= r.chunks
    ensures forall i :: |s.chunks| <= i < |r.chunks| ==> r.chunks[i].masterId == s.nextId
    ensures r.nextId == s.nextId + 1 && r.nextChunkId == s.nextChunkId + (|r.chunks| - |s.chunks|)
  {
    var ps := Pieces(source);
    Store(s.headers + [h.(id := s.nextId, size := |source|)],
          s.chunks + NewChunks(s.nextChunkId, s.nextId, ps),
          s.nextId + 1, s.nextChunkId + |ps|)
  }

  /** The tables after `DELETE FROM stream WHERE <range>` with the cascade,
      and, when asked for on an unbounded range, the counters reset to 1. */
  ghost function Deleted(s: Store, b: Bounds, resetId: bool): (r: Store)
    ensures forall g :: g in r.headers <==> g in s.headers && !InRange(g.id, b)
    ensures forall c :: c in r.chunks <==> c in s.chunks && c.masterId !in Ids(Select(s.headers, b))
    ensures resetId && b.first == 0 && b.last == 0 ==> r.nextId == 1 && r.nextChunkId == 1
    ensures !(resetId && b.first == 0 && b.last == 0) ==> r.nextId == s.nextId && r.nextChunkId == s.nextChunkId
  {
    var reset := resetId && b.first == 0 && b.last == 0;
    KeepMembers(s.headers, b);
    CascadeMembers(s.chunks, Ids(Select(s.headers, b)));
    Store(Keep(s.headers, b), Cascade(s.chunks, Ids(Select(s.headers, b))),
          if reset then 1 else s.nextId, if reset then 1 else s.nextChunkId)
  }

  /** A committed Write keeps the tables valid; the new stream's chunks,
      reassembled in chunk-id order, are the source bytes; its `size` is the
      number of bytes read; its chunks are one per non-empty read of at most
      `MaxCell` bytes; and every older stream's payload is unchanged. */
  lemma WriteCommitted(s: Store, h: StreamHeader, source: seq<byte>)
    requires Valid(s) && h.descr.Text?
    ensures var r := Committed(s, h, source);
      && Valid(r)
      && r.headers[|s.headers|].id == s.nextId
      && r.headers[|s.headers|].size == |source|
      && ChunkData(r.chunks, s.nextId) == Pieces(source)
      && Payload(r.chunks, s.nextId) == source
      && |ChunkData(r.chunks, s.nextId)| == (|source| + MaxCell - 1) / MaxCell
      && (forall i :: 0 <= i < |s.headers| ==> Payload(r.chunks, s.headers[i].id) == Payload(s.chunks, s.headers[i].id))
  {
    var ps := Pieces(source);
    FlattenPieces(source);
    PiecesBounded(source);
    TotalLenFlatten(ps);
    PiecesCount(source);
    WriteKeepsValid(s.headers, s.chunks, s.nextId, s.nextChunkId, h, ps);
    NewStreamData(s, ps);
    OldStreamsData(s, ps);
  }

  /** Before a Write no chunk refers to the next header id. */
  lemma NoChunkOfNextId(s: Store)
    requires Valid(s)
    ensures forall i :: 0 <= i < |s.chunks| ==> s.chunks[i].masterId != s.nextId
  {
    forall i | 0 <= i < |s.chunks| ensures s.chunks[i].masterId != s.nextId {
      var g :| g in s.headers && g.id == s.chunks[i].masterId;
      var j :| 0 <= j < |s.headers| && s.headers[j] == g;
    }
  }

  lemma NewStreamData(s: Store, ps: seq<seq<byte>>)
    requires Valid(s)
    ensures ChunkData(s.chunks + NewChunks(s.nextChunkId, s.nextId, ps), s.nextId) == ps
  {
    var added := NewChunks(s.nextChunkId, s.nextId, ps);
    NoChunkOfNextId(s);
    ChunkDataAbsent(s.chunks, s.nextId);
    ChunkDataAppend(s.chunks, added, s.nextId);
    ChunkDataNew(s.nextChunkId, s.nextId, ps);
    assert ChunkData(s.chunks + added, s.nextId) == [] + ps;
  }

  lemma OldStreamsData(s: Store, ps: seq<seq<byte>>)
    requires Valid(s)
    ensures forall i :: 0 <= i < |s.headers| ==>
      Payload(s.chunks + NewChunks(s.nextChunkId, s.nextId, ps), s.headers[i].id) == Payload(s.chunks, s.headers[i].id)
  {
    var added := NewChunks(s.nextChunkId, s.nextId, ps);
    forall i | 0 <= i < |s.headers|
      ensures Payload(s.chunks + added, s.headers[i].id) == Payload(s.chunks, s.headers[i].id)
    {
      assert s.headers[i].id < s.nextId;
      ChunkDataOther(s.chunks, s.nextChunkId, s.nextId, ps, s.headers[i].id);
    }
  }

  /** `DELETE FROM stream WHERE <range>`: the surviving headers are exactly
      the old ones out of range, the tables stay valid, and the counters go
      back to 1 only for an unbounded range with `resetId`. */
  lemma DeleteEffect(s: Store, b: Bounds, resetId: bool)
    requires Valid(s)
    ensures var r := Deleted(s, b, resetId);
      && Valid(r)
      && (forall h :: h in r.headers <==> h in s.headers && !InRange(h.id, b))
      && ((r.nextId, r.nextChunkId) == (if resetId && b.first == 0 && b.last == 0 then (1, 1) else (s.nextId, s.nextChunkId)))
  {
    DeletedValid(s, b, resetId);
    KeepMembers(s.headers, b);
  }

  /** The `ON DELETE CASCADE` of a delete: every surviving chunk is an old
      one whose header survived, every chunk of a surviving header survives,
      and so every surviving stream keeps its payload byte for byte. */
  lemma DeleteCascades(s: Store, b: Bounds, resetId: bool)
    requires Valid(s)
    ensures var r := Deleted(s, b, resetId);
      && (forall c :: c in r.chunks ==> c in s.chunks && c.masterId in Ids(r.headers))
      && (forall c :: c in s.chunks && c.masterId in Ids(r.headers) ==> c in r.chunks)
      && (forall i :: 0 <= i < |r.headers| ==> Payload(r.chunks, r.headers[i].id) == Payload(s.chunks, r.headers[i].id))
  {
    CascadeOwned(s, b);
    DeleteKeepsOwnedChunks(s, b);
    DeleteKeepsPayloads(s, b);
  }

  /** Every chunk left by the cascade was there before and belongs to a
      surviving header. */
  lemma CascadeOwned(s: Store, b: Bounds)
    requires Valid(s)
    ensures forall c :: c in Cascade(s.chunks, Ids(Select(s.headers, b))) ==>
      c in s.chunks && c.masterId in Ids(Keep(s.headers, b))
  {
    var cs' := Cascade(s.chunks, Ids(Select(s.headers, b)));
    KeptChunksValid(s.headers, s.chunks, s.nextId, s.nextChunkId, b);
    forall c | c in cs' ensures c in s.chunks && c.masterId in Ids(Keep(s.headers, b)) {
      var i :| 0 <= i < |cs'| && cs'[i] == c;
      assert cs'[i] in s.chunks && cs'[i].masterId in Ids(Keep(s.headers, b));
    }
  }

  /** Valid tables list their headers by ascending, positive id. */
  lemma ValidOrdered(s: Store)
    requires Valid(s)
    ensures Ascending(s.headers)
    ensures forall i :: 0 <= i < |s.headers| ==> s.headers[i].id > 0
  {
  }

  /** A delete, with or without the counter reset, keeps the tables valid. */
  lemma DeletedValid(s: Store, b: Bounds, resetId: bool)
    requires Valid(s)
    ensures Valid(Deleted(s, b, resetId))
  {
    DeleteKeepsValid(s.headers, s.chunks, s.nextId, s.nextChunkId, b);
    if resetId && b.first == 0 && b.last == 0 {
      DeleteAllEmpties(s, b);
    }
  }

  /** An unbounded delete empties both tables. */
  lemma DeleteAllEmpties(s: Store, b: Bounds)
    requires Valid(s)
    requires b.first == 0 && b.last == 0
    ensures Keep(s.headers, b) == [] && Cascade(s.chunks, Ids(Select(s.headers, b))) == []
  {
    var removed := Ids(Select(s.headers, b));
    UnboundedSelectsAll(s.headers, b);
    CascadeAll(s.chunks, removed);
  }

  lemma {:induction false} CascadeAll(cs: seq<Chunk>, removed: set<nat>)
    requires forall i :: 0 <= i < |cs| ==> cs[i].masterId in removed
    ensures Cascade(cs, removed) == []
  {
    if cs != [] {
      assert forall i :: 0 <= i < |cs[1..]| ==> cs[1..][i] == cs[i + 1];
      CascadeAll(cs[1..], removed);
    }
  }

  /** Chunks of surviving headers survive the cascade. */
  lemma DeleteKeepsOwnedChunks(s: Store, b: Bounds)
    requires Valid(s)
    ensures forall c :: c in s.chunks && c.masterId in Ids(Keep(s.headers, b)) ==>
      c in Cascade(s.chunks, Ids(Select(s.headers, b)))
  {
    var removed := Ids(Select(s.headers, b));
    var kept := Keep(s.headers, b);
    CascadeMembers(s.chunks, removed);
    forall c | c in s.chunks && c.masterId in Ids(kept) ensures c in Cascade(s.chunks, removed) {
      var g :| g in kept && g.id == c.masterId;
      UniqueIds(s.headers, b, g);
    }
  }

  /** A surviving header's id is not among the removed ids. */
  lemma UniqueIds(hs: seq<StreamHeader>, b: Bounds, g: StreamHeader)
    requires g in Keep(hs, b)
    ensures g.id !in Ids(Select(hs, b))
  {
    KeepMembers(hs, b);
    SelectMembers(hs, b);
  }

  lemma DeleteKeepsPayloads(s: Store, b: Bounds)
    requires Valid(s)
    ensures forall i :: 0 <= i < |Keep(s.headers, b)| ==>
      Payload(Cascade(s.chunks, Ids(Select(s.headers, b))), Keep(s.headers, b)[i].id)
      == Payload(s.chunks, Keep(s.headers, b)[i].id)
  {
    var removed := Ids(Select(s.headers, b));
    var kept := Keep(s.headers, b);
    forall i | 0 <= i < |kept| ensures Payload(Cascade(s.chunks, removed), kept[i].id) == Payload(s.chunks, kept[i].id) {
      assert kept[i] in kept;
      UniqueIds(s.headers, b, kept[i]);
      ChunkDataCascade(s.chunks, removed, kept[i].id);
    }
  }
}
